=== FILE: README.md ===
# md2wechat in Dafny

A model of the Markdown-to-WeChat converter in `md2wechat.py`. It covers:

- the line recognisers `RE_*`;
- the `Parser` class with its block assembler and main loop;
- the nested-list builder `_parse_list`;
- the pipe-table parser `_parse_table`;
- `html_escape`;
- `render_wechat_html`;
- `_safe_filename` from `utils/fs.py`.

It also proves properties of the model.

The model is split into two layers:

- **Scanning** produces structure. `Parser.Parse` turns the lines of a document into a sequence of top-level fragments:
  - a `Block` of parts, which the source wraps in the root template;
  - the rule template;
  - the end marker.

  Each part is one template instance before rendering: banner, blank, image, text, heading, quote, list or table. Text payloads are kept raw.
- **Rendering** (`Render.RenderWechatHtml`) produces the exact string. It escapes every payload, fills each template with Python's `str.replace` semantics (`Strings.ReplaceAll`), and joins the results.

Modules follow the source:

| module | models |
|---|---|
| `Strings` | `strip`, `split`, `join`, `replace` |
| `Markdown` | the regular expressions and the order in which the main loop tries them (`Classify`) |
| `Lists` | `_parse_list` and its `li_content_span` |
| `Tables` | `_parse_table` |
| `Decimal` | the `{:02d}` heading index |
| `Fences` | the `code:` text of a closed fence |
| `Parser` | the class and its loop |
| `Invariants`, `Steps`, `Output` | what the loop does per branch and what the finished page looks like |
| `Render` | the final string |
| `FileNames` | `_safe_filename` |

The module docstring (md2wechat.py:5-18) lists the rules the converter follows. Where the code and those rules differ, the model follows the code:

- **Blank lines.** A blank line is appended to the current block, opening one if needed, and that block is then closed. In a run of blank lines the first therefore ends whatever block was open, and each further blank line becomes a block holding only a blank (`Steps.BlankStep`, `Steps.BlankLines`).
- **Horizontal rules.** The rule pattern `^\s*([*-])\1\1[\s*-]*$` needs three equal characters first. After those it accepts any mix of whitespace, `*` and `-`, so `---*` is a rule (`Markdown.IsRule`).
- **Branch order.** The main loop tries, in this order:
  1. blank;
  2. rule;
  3. fence;
  4. image;
  5. heading 1;
  6. heading 2;
  7. quote;
  8. list;
  9. table;
  10. plain text.

  A line holding both an image and a `#` heading is therefore an image line.
- **A page that starts with a rule** has no top banner, although rule 6 asks for one. The rule is emitted on its own before any block is open, and the top banner is only added to a block opened while nothing has been emitted, so `---` followed by `a` gives a rule, then a block holding the text and the bottom banner, then the end marker (`Output.FinishTopBanner`, `Render.RenderStarts`).
- **A `|` line that forms no table** still ends the paragraph before it, because the paragraph stop test looks only for a `|`. The main loop then falls through to the plain-text branch on that line, so it starts a paragraph of its own: `a` followed by `b|c` gives two text parts, not one (`Steps.TableStepRun`, `Steps.ParagraphRun`).
- **Unterminated fences.** A fence that is never closed drops its collected lines: nothing of them reaches the output (`Steps.UnclosedFence`).
- **Several images on one line** produce one image part. They also produce one text part if text remains once all images are removed (`Parser.ImageParts`).
- **The `{key}` placeholder.** A list item is escaped into `{text}` before `{key}` is filled. An item whose own text contains `{key}` therefore has that text rewritten into the list kind's key (`Lists.LiHtmlKeyQuirk`).

Parameters and assumptions:

- **Templates.** They are a parameter (`Render.Templates`) rather than files.
- **Input lines.** The document is given as its sequence of lines, none of which contains a newline.
- **Character classes.** Python's `\s` is `Strings.IsSpace`. Python's `\d` is the ASCII digits (`Markdown.IsDigit`). Unicode `\w` is the parameter `isWord` of `FileNames`.

## Model

| member | source | states |
|---|---|---|
| Strings.Strip | md2wechat.py:180 | the stripped string is the input without its maximal leading and trailing whitespace runs, empty exactly when the input is all whitespace, with no whitespace at either end |
| Strings.StripPadding | md2wechat.py:403 | stripping removes padding only: the result is a slice of the input with nothing but whitespace before and after it |
| Strings.Split | md2wechat.py:408 | `str.split` on one character yields one more piece than there are separators, and no piece contains the separator |
| Strings.SplitJoin | md2wechat.py:408 | joining the pieces of a split with the separator restores the string split |
| Escape.HtmlEscape | md2wechat.py:56-62 | escaping replaces every character by its own token (`&amp;`, `&lt;`, `&gt;` or itself) and leaves no `<` or `>` in the result |
| Escape.EscapeTokenwise | md2wechat.py:58-62 | the three chained `replace` calls, `&` first, equal the per-character token map |
| Escape.EscapeRoundTrip | md2wechat.py:56-62 | decoding the three entities recovers the original text, so escaping loses nothing |
| Escape.EscapeFixpoint | md2wechat.py:56-62 | escaping leaves a text unchanged exactly when it holds no `&`, `<` or `>` |
| Escape.EscapeGrows | md2wechat.py:56-62 | escaping never shortens a text and strictly lengthens one that holds a special character |
| Escape.EscapeAbsent | md2wechat.py:56-62 | escaping introduces no character outside the input and the three entities |
| Markdown.Indentation | md2wechat.py:92-93 | the leading-whitespace group is all whitespace and, followed by the left-stripped line, gives back the line |
| Markdown.FenceOf | md2wechat.py:192-202 | a fence is recognised exactly when the left-stripped line starts with three backticks or three tildes |
| Markdown.RemoveImagesChanges | md2wechat.py:205-210 | removing the image references changes a line exactly when the line holds one |
| Markdown.RemoveImagesShrinks | md2wechat.py:210 | removing images never lengthens a line, shortens it when an image is present and is the identity when none is |
| Markdown.DigitRun | md2wechat.py:92 | the digit run of an ordered item is maximal: all digits, followed by the end or a non-digit |
| Markdown.ListMatch | md2wechat.py:262 | a line starts a list exactly when the ordered or the unordered pattern matches, and it is ordered exactly when the ordered one does |
| Markdown.SpanMatches | md2wechat.py:247-254 | the quote run holds the group of every consecutive quote line from the start and stops at the end or at the first line that is not a quote |
| Markdown.RunWhileStops | md2wechat.py:282-289 | the paragraph scan takes every line satisfying the continuation test and stops at the end or at the first that fails it |
| Markdown.ClassifyGroups | md2wechat.py:179-262 | a line classified as fence, heading, quote or list carries the group its pattern captures |
| Markdown.EndsParagraphIsNotPlain | md2wechat.py:284-286 | the paragraph's stop condition holds exactly for the lines `Classify` does not class as plain text; a `|` line that forms no table is among them, although the main loop then handles it as plain text |
| Lists.IndentWidth | md2wechat.py:317 | the indent width counts each tab as four columns and every other character as one |
| Lists.TabsExpanded | md2wechat.py:317 | replacing every tab by four spaces lengthens the indent by three per tab |
| Lists.Depth | md2wechat.py:318 | the depth is `width // 2 + 1`: at least 1, with `2(d-1) <= width < 2d` |
| Lists.ItemOf | md2wechat.py:314-327 | a line yields an item exactly when a list pattern matches; the item has the kind that matched, a depth d with 2(d-1) <= w < 2d where w is the width of the indentation with a tab counting four, and as text the body group with the whitespace at both ends cut away and nothing more |
| Lists.ListRunItems | md2wechat.py:311-331 | the item run holds the item of every consecutive list line from the start and ends at the end or at the first non-list line |
| Lists.UlStyle | md2wechat.py:77-79 | the unordered style is one of `disc`, `square`, `circle` |
| Lists.OlStyle | md2wechat.py:82-84 | the ordered style is one of the four ordered styles |
| Lists.StyleCycles | md2wechat.py:73-84 | styles start at `disc` and `decimal` for depth 1 and repeat every three and every four levels |
| Lists.Kept | md2wechat.py:372-373 | the loop keeps a prefix whose top, if any, is the item's kind at no greater depth, and every frame it pops is deeper than the item or of the other kind |
| Lists.CloseWhile | md2wechat.py:372-373 | closing keeps a prefix of the stack whose top, if any, is the item's kind at no greater depth, pops only frames deeper than the item or of the other kind, and emits one close per popped list, innermost first |
| Lists.PlaceKeepsStack | md2wechat.py:366-375 | placing an item keeps the stack's depths strictly increasing, leaves a list of the item's kind and depth on top, and its events replay to that stack |
| Lists.BuildBalanced | md2wechat.py:366-386 | the open and close tags the builder emits are balanced: replaying them from an empty stack ends with an empty stack |
| Lists.BuildTexts | md2wechat.py:377-382 | the list items appear in the output exactly once each, in input order |
| Lists.LiHtmlPlain | md2wechat.py:357-379 | for text without `{`, an item renders as the fixed wrapper with the kind's key and the escaped text |
| Lists.LiHtmlKeyQuirk | md2wechat.py:357-379 | an item whose text is `{key}` renders with the key in place of its text |
| Tables.SplitRow | md2wechat.py:401-408 | a row yields one cell per piece of its text between the enclosing pipes split on the pipe; each cell is a slice of its piece with only whitespace cut away before and after it, and it starts and ends on a non-space character |
| Tables.SplitRowCells | md2wechat.py:401-408 | a row has at least one cell, no cell contains a pipe, and every cell is stripped |
| Tables.SplitRowPieces | md2wechat.py:401-408 | the pieces rejoined with the pipe give back the text between the enclosing pipes, and there is one cell per separator plus one |
| Tables.ResidueEmpty | md2wechat.py:421 | a cell leaves nothing once colons and dashes are removed exactly when it consists of colons and dashes only |
| Tables.ParseTable | md2wechat.py:391-434 | an accepted table consumes at least the header and separator and no more lines than remain |
| Tables.ParseTableSpec | md2wechat.py:391-434 | the table is rejected exactly when the line has no pipe, no next line exists, or the next line is not a separator; when accepted, its header, body rows and length are those of the declarative table at that line |
| Tables.TableFromAt | md2wechat.py:430-434 | given the end of the maximal body run, the table built up to it is the declarative table at that line: header cells, then each body line split into cells |
| Tables.TableRowCount | md2wechat.py:443-468 | the table markup holds one row opening for the header and one per body row |
| Decimal.Digits | md2wechat.py:223 | the numeral is non-empty, all digits, and has no leading zero unless it is the single digit of a number below ten |
| Decimal.IndexLabel | md2wechat.py:223 | the heading label has at least two digits and a leading zero only when padded |
| Decimal.DigitsValue | md2wechat.py:223 | reading the numeral of `n` back gives `n` |
| Decimal.IndexLabelValue | md2wechat.py:223 | reading the label back gives the heading number, so distinct headings get distinct labels |
| Decimal.IndexLabelWidth | md2wechat.py:223 | numbers below 100 get exactly two characters, larger ones their plain numeral |
| Fences.CodeTextShape | md2wechat.py:167-168 | the text of a closed fence starts with `code:`, holds no newline, and unquoting its rest gives back the fenced lines joined with newlines |
| Fences.QuoteTokenwise | md2wechat.py:168 | the two chained `replace` calls, backslash first, equal the per-character quoting map |
| Fences.UnquoteTokens | md2wechat.py:168 | quoting backslashes and newlines is undone by unquoting |
| Parser.OpenBlock | md2wechat.py:126-132 | opening leaves an open block and changes nothing if one is open; a new block starts with the top banner exactly when nothing was emitted yet |
| Parser.Add | md2wechat.py:126-132 | adding parts appends them to the block, opened if needed, and leaves emitted fragments alone |
| Parser.CloseBlock | md2wechat.py:134-141 | closing emits the open block as one fragment and leaves no block open; with none open it changes nothing |
| Parser.ImageParts | md2wechat.py:204-216 | an image line adds one image part and a text part exactly when text remains once images are removed and the line is stripped |
| Parser.Step | md2wechat.py:160-177 | every iteration of the loop consumes at least one line and none beyond the end |
| Parser.FenceStep | md2wechat.py:164-177 | inside a fence every line is consumed singly |
| Parser.Dispatch | md2wechat.py:179-293 | every branch outside a fence consumes at least one line and none beyond the end |
| Parser.QuoteStep | md2wechat.py:241-259 | the quote branch consumes at least its own line |
| Parser.ListStep | md2wechat.py:261-267 | the list branch consumes at least its own line |
| Parser.TableStep | md2wechat.py:269-276 | the table branch, or its plain-text fallback, consumes at least one line |
| Parser.Paragraph | md2wechat.py:278-293 | the plain-text branch consumes at least one line |
| Parser.Run | md2wechat.py:160 | the main loop terminates at the end of the input |
| Invariants.InitWf | md2wechat.py:100-123 | the initial parser state satisfies the assembler invariant |
| Invariants.OpenParts | md2wechat.py:126-132 | opening adds the top banner to all parts seen so far exactly when nothing was emitted and no block is open |
| Invariants.AddParts | md2wechat.py:126-132 | adding parts appends them to all parts seen so far and keeps the top banner in place |
| Invariants.CloseParts | md2wechat.py:134-141 | closing a block changes neither the parts seen so far nor whether output starts with a block |
| Invariants.RuleParts | md2wechat.py:149-153 | a rule adds no part and keeps the top banner in place |
| Invariants.AddWf | md2wechat.py:126-132 | adding content without banners keeps the invariant, with the heading count moved by the headings added |
| Invariants.CloseWf | md2wechat.py:134-141 | closing a block keeps the invariant |
| Invariants.BlankWf | md2wechat.py:142-147 | the blank branch keeps the invariant |
| Invariants.RuleWf | md2wechat.py:149-153 | the rule branch keeps the invariant |
| Invariants.ImageWf | md2wechat.py:204-216 | the image branch keeps the invariant |
| Invariants.HeadingWf | md2wechat.py:218-229 | the heading-1 branch keeps the invariant: heading-1 indices stay 1..count |
| Invariants.QuoteWf | md2wechat.py:241-259 | the quote branch keeps the invariant |
| Invariants.ListWf | md2wechat.py:261-267 | the list branch keeps the invariant |
| Invariants.TableWf | md2wechat.py:269-276 | the table branch keeps the invariant |
| Invariants.ParagraphWf | md2wechat.py:278-293 | the plain-text branch keeps the invariant |
| Invariants.FenceWf | md2wechat.py:164-177 | a step inside a fence keeps the invariant |
| Invariants.DispatchWf | md2wechat.py:179-293 | every branch outside a fence keeps the invariant |
| Invariants.StepWf | md2wechat.py:160-293 | every iteration of the loop keeps the invariant: no bottom banner or end marker yet, heading indices 1..count, the top banner first or absent |
| Invariants.RunWf | md2wechat.py:160-293 | the whole loop keeps the invariant |
| Steps.BlankStep | md2wechat.py:179-183 | a blank line appends the blank part to the current block, opened if needed, emits that block and leaves none open |
| Steps.BlankLines | md2wechat.py:142-147 | N blank lines after emitted output produce N blocks each holding only a blank |
| Steps.RuleStep | md2wechat.py:185-189 | a rule line emits the open block, if any, then the rule, outside any block |
| Steps.HeadingStep | md2wechat.py:218-229 | a heading-1 line numbers its heading one past the previous count and appends it with its stripped title |
| Steps.Heading2Step | md2wechat.py:179-239 | a line that every earlier branch passes over and that `RE_H2` matches is classified as a heading 2 and appends one second-level heading with its stripped title to the open or a new block, leaving the heading-1 count and the output alone |
| Steps.ImageStep | md2wechat.py:204-216 | an image line consumes one line and appends the image part, then the remaining text if any |
| Steps.QuoteStepRun | md2wechat.py:241-259 | a quote line appends one quote part whose first line is its own group, consuming the whole quote run |
| Steps.ListStepRun | md2wechat.py:261-267 | a list line appends one list part of the run's items, consuming one line per item |
| Steps.TableStepRun | md2wechat.py:269-276 | a pipe line appends the table and skips its lines when one is accepted, and otherwise starts a paragraph of its own |
| Steps.ParagraphRun | md2wechat.py:278-293 | a paragraph takes every following plain line and stops at the first line of another kind, appending one text part of the stripped lines joined |
| Steps.PlainLines | md2wechat.py:282-289 | the paragraph scan runs exactly over the lines classified as plain text |
| Steps.UnclosedFence | md2wechat.py:164-177 | a fence never closed collects the rest of the input, and the finished output is as if none of it had been read |
| Steps.FenceRun | md2wechat.py:174-176 | inside a fence that is not closed every remaining line is collected in order |
| Steps.FenceOpens | md2wechat.py:191-202 | an opening fence line only starts collecting under the fence it names: the code collected so far is emptied and nothing else changes but the position |
| Steps.ClosedFence | md2wechat.py:165-173 | a closing line ends the fence and appends the code text to the block that was open, or to a new one, emitting nothing and leaving the heading count alone |
| Steps.FinishIgnoresFence | md2wechat.py:295-299 | the finish does not read the collected fence lines or the cursor |
| Output.FinishFrame | md2wechat.py:295-299 | the output ends with the end marker, found nowhere else, right after a block ending with the bottom banner |
| Output.FinishBottom | md2wechat.py:295-299 | the bottom banner is the very last part and appears only once |
| Output.FinishTopBanner | md2wechat.py:126-132 | the top banner is present exactly when the output starts with a block, is then its first part, and is nowhere else |
| Output.FinishHeadings | md2wechat.py:218-229 | heading-1 indices in the output are 1, 2, ..., n in document order |
| Output.FinishParts | md2wechat.py:295-299 | finishing closes one more block, holding the pending parts and the bottom banner, then adds the end marker |
| Output.ParseShape | md2wechat.py:156-301 | for every input: end marker last and unique, bottom banner last part and unique, top banner first part exactly when output starts with a block, heading-1 indices 1..n |
| Render.EscapeAll | md2wechat.py:255 | every quote line is escaped, in order |
| Render.RenderEnds | md2wechat.py:473-482 | every rendered page ends with a root block whose content ends with the bottom banner, then the end template |
| Render.RenderStarts | md2wechat.py:473-482 | a page that starts with a root block starts with the top banner inside it; otherwise the top banner is absent |
| FileNames.SubUnsafe | utils/fs.py:10 | the substitution replaces each character outside the safe class by `_` and keeps the rest, position by position |
| FileNames.SpacesReplaced | utils/fs.py:9 | replacing spaces turns each space into `_` and keeps every other character |
| FileNames.SafeFilename | utils/fs.py:7-11 | the name keeps its length; each character is kept when it is a safe non-space and becomes `_` otherwise |
| FileNames.SafeOutput | utils/fs.py:7-11 | every character of the result is in the safe class; no space, `/` or `\` remains |
| FileNames.Idempotent | utils/fs.py:7-11 | sanitising a sanitised name changes nothing |

## Left out

- File loading: `read_file`, `load_tpl` and the template-name table are file I/O. The eleven templates are the parameter `Render.Templates`, so the missing-template error is not modelled.
- Template directory: `Parser.__init__`'s lookup of the directory is not modelled, because it depends on the filesystem.
- `main`: the command-line entry point does file I/O and argument parsing.
- `convert`: it is an alias of `render_wechat_html` and adds nothing.
- `str.splitlines`: the input is given as its sequence of lines. Python's other line separators (`\r`, `\x0b`, `\x0c`, `\u2028` and the rest) are not modelled.
- Unicode classes:
  - `\w` in `_safe_filename` is the parameter `isWord`. Only `_` in it and space, `/` and `\` out of it are assumed (`FileNames.WordClass`).
  - `\d` in the ordered-list pattern is ASCII digits only, where Python also accepts other Unicode decimal digits.
  - `\s` is the whitespace set of `Strings.IsSpace`.
- `save_uploaded_file`: it writes to a temporary directory. `app.py`, `services/` and `deps.py` are outside this model.
- Steps.QuoteStepRun: states the consumed run through `Markdown.Span`; that the run is maximal and holds each line's group is stated by `Markdown.SpanMatches`.
- Steps.ListStepRun: states the consumed run through `Lists.ListRun`; that the run is maximal and holds each line's item is stated by `Lists.ListRunItems`.
- Lists.LiHtmlPlain: states the rendered item only for text without `{`. Text with braces is covered only by the `{key}` instance in `Lists.LiHtmlKeyQuirk`.
- Tables.TableRowCount: counts the row openings of the markup. It does not restate every cell line.
- Parser.Step: its contract states only the progress of one iteration of the loop. What it adds to the output is stated by the `Steps` lemmas, and the invariant it keeps by the `Invariants` lemmas.
- Parser.FenceStep: its contract states only the progress of a line inside a fence. What it adds to the output is stated by the `Steps` lemmas, and the invariant it keeps by the `Invariants` lemmas.
- Parser.Dispatch: its contract states only the progress of the branches outside a fence. What it adds to the output is stated by the `Steps` lemmas, and the invariant it keeps by the `Invariants` lemmas.
- Parser.QuoteStep: its contract states only the progress of the quote branch. What it adds to the output is stated by the `Steps` lemmas, and the invariant it keeps by the `Invariants` lemmas.
- Parser.ListStep: its contract states only the progress of the list branch. What it adds to the output is stated by the `Steps` lemmas, and the invariant it keeps by the `Invariants` lemmas.
- Parser.TableStep: its contract states only the progress of the table branch. What it adds to the output is stated by the `Steps` lemmas, and the invariant it keeps by the `Invariants` lemmas.
- Parser.Paragraph: its contract states only the progress of the plain-text branch. What it adds to the output is stated by the `Steps` lemmas, and the invariant it keeps by the `Invariants` lemmas.
- Parser.Run: its contract states only the progress of the loop. What it adds to the output is stated by the `Steps` lemmas, and the invariant it keeps by the `Invariants` lemmas.

=== FILE: decimal.dfy ===
/** The heading index label `f"{k:02d}"`: the decimal digits of `k`, padded
    on the left with zeros to at least two characters. */
module Decimal {
  import opened Markdown

  function DigitChar(d: nat): (c: char)
    requires d < 10
    ensures IsDigit(c)
  {
    (d + '0' as int) as char
  }

  function DigitValue(c: char): nat
    requires IsDigit(c)
  {
    c as int - '0' as int
  }

  /** `str(n)`: the shortest decimal numeral of `n`. */
  function Digits(n: nat): (s: string)
    ensures |s| >= 1
    ensures forall i :: 0 <= i < |s| ==> IsDigit(s[i])
    ensures n >= 10 ==> s[0] != '0'
    ensures n < 10 <==> |s| == 1
  {
    if n < 10 then [DigitChar(n)] else Digits(n / 10) + [DigitChar(n % 10)]
  }

  predicate AllDigits(s: string) {
    forall i :: 0 <= i < |s| ==> IsDigit(s[i])
  }

  /** The number a string of digits denotes, as `int(s)` reads it. */
  function Value(s: string): nat
    requires AllDigits(s)
  {
    if s == [] then 0 else Value(s[..|s| - 1]) * 10 + DigitValue(s[|s| - 1])
  }

  /** `f"{n:02d}"`. */
  function IndexLabel(n: nat): (s: string)
    ensures |s| >= 2
    ensures AllDigits(s)
    ensures |s| > 2 ==> s[0] != '0'
  {
    if n < 10 then "0" + Digits(n) else Digits(n)
  }

  lemma {:induction false} DigitsValue(n: nat)
    ensures Value(Digits(n)) == n
  {
    if n >= 10 {
      var s := Digits(n);
      DigitsValue(n / 10);
      assert s[..|s| - 1] == Digits(n / 10);
    }
  }

  lemma {:induction false} LeadingZero(s: string)
    requires AllDigits(s)
    ensures AllDigits("0" + s) && Value("0" + s) == Value(s)
  {
    if s != [] {
      LeadingZero(s[..|s| - 1]);
      assert ("0" + s)[..|s|] == "0" + s[..|s| - 1];
    }
  }

  /** Reading the label back gives the index: the label is faithful and two
      headings never share one. */
  lemma IndexLabelValue(n: nat)
    ensures Value(IndexLabel(n)) == n
  {
    DigitsValue(n);
    if n < 10 {
      LeadingZero(Digits(n));
    }
  }

  /** Indices below 100 get exactly two characters, larger ones their plain
      numeral. */
  lemma IndexLabelWidth(n: nat)
    ensures n < 100 ==> |IndexLabel(n)| == 2
    ensures n >= 10 ==> IndexLabel(n) == Digits(n)
  {
    if 10 <= n < 100 {
      assert |Digits(n / 10)| == 1;
    }
  }

}

=== FILE: escape.dfy ===
/** `html_escape`: the minimal escaping of `&`, `<` and `>` applied to every
    piece of user text before it is put into a template. */
module Escape {
  import opened Strings

  /** The three chained `str.replace` calls, `&` first. */
  function HtmlEscape(text: string): (r: string)
    ensures r == FlatMap(text, EscapeToken)
    ensures '<' !in r && '>' !in r
  {
    EscapeTokenwise(text);
    NoAngleBrackets(text);
    ReplaceAll(ReplaceAll(ReplaceAll(text, "&", "&amp;"), "<", "&lt;"), ">", "&gt;")
  }

  /** What each character of the input becomes. */
  function EscapeToken(c: char): string {
    if c == '&' then "&amp;"
    else if c == '<' then "&lt;"
    else if c == '>' then "&gt;"
    else [c]
  }

  // The intermediate strings of the replace chains, as token maps.
  function AmpOnly(c: char): string {
    if c == '&' then "&amp;" else [c]
  }

  function AmpLt(c: char): string {
    if c == '&' then "&amp;" else if c == '<' then "&lt;" else [c]
  }

  function AmpGt(c: char): string {
    if c == '&' then "&amp;" else if c == '>' then "&gt;" else [c]
  }

  lemma EscapeTokenwise(text: string)
    ensures ReplaceAll(ReplaceAll(ReplaceAll(text, "&", "&amp;"), "<", "&lt;"), ">", "&gt;")
         == FlatMap(text, EscapeToken)
  {
    FlatMapKeep(text);
    AmpStage(text);
    LtStage(text);
    GtStage(text);
  }

  lemma AmpStage(text: string)
    ensures ReplaceAll(FlatMap(text, Keep), "&", "&amp;") == FlatMap(text, AmpOnly)
  {
    forall c
      ensures (Keep(c) == "&" && AmpOnly(c) == "&amp;") || (Inert(Keep(c), "&") && AmpOnly(c) == Keep(c))
    {
    }
    ReplaceTokens(text, Keep, AmpOnly, "&", "&amp;");
  }

  lemma LtStage(text: string)
    ensures ReplaceAll(FlatMap(text, AmpOnly), "<", "&lt;") == FlatMap(text, AmpLt)
  {
    forall c
      ensures (AmpOnly(c) == "<" && AmpLt(c) == "&lt;") || (Inert(AmpOnly(c), "<") && AmpLt(c) == AmpOnly(c))
    {
    }
    ReplaceTokens(text, AmpOnly, AmpLt, "<", "&lt;");
  }

  lemma GtStage(text: string)
    ensures ReplaceAll(FlatMap(text, AmpLt), ">", "&gt;") == FlatMap(text, EscapeToken)
  {
    forall c
      ensures (AmpLt(c) == ">" && EscapeToken(c) == "&gt;") || (Inert(AmpLt(c), ">") && EscapeToken(c) == AmpLt(c))
    {
    }
    ReplaceTokens(text, AmpLt, EscapeToken, ">", "&gt;");
  }

  lemma {:induction false} NoAngleBrackets(text: string)
    ensures '<' !in FlatMap(text, EscapeToken) && '>' !in FlatMap(text, EscapeToken)
  {
    if text != [] {
      NoAngleBrackets(text[1..]);
    }
  }

  /** Decoding `&lt;`, then `&gt;`, then `&amp;`. */
  function Unescape(html: string): string {
    ReplaceAll(ReplaceAll(ReplaceAll(html, "&lt;", "<"), "&gt;", ">"), "&amp;", "&")
  }

  /** Because `&` is escaped first, decoding in the order `&lt;`, `&gt;`,
      `&amp;` recovers the original text. */
  lemma EscapeRoundTrip(text: string)
    ensures Unescape(HtmlEscape(text)) == text
  {
    forall c
      ensures (EscapeToken(c) == "&lt;" && AmpGt(c) == "<")
           || (Inert(EscapeToken(c), "&lt;") && AmpGt(c) == EscapeToken(c))
    {
    }
    ReplaceTokens(text, EscapeToken, AmpGt, "&lt;", "<");
    forall c
      ensures (AmpGt(c) == "&gt;" && AmpOnly(c) == ">")
           || (Inert(AmpGt(c), "&gt;") && AmpOnly(c) == AmpGt(c))
    {
    }
    ReplaceTokens(text, AmpGt, AmpOnly, "&gt;", ">");
    forall c
      ensures (AmpOnly(c) == "&amp;" && Keep(c) == "&")
           || (Inert(AmpOnly(c), "&amp;") && Keep(c) == AmpOnly(c))
    {
    }
    ReplaceTokens(text, AmpOnly, Keep, "&amp;", "&");
    FlatMapKeep(text);
  }

  /** Escaping changes the text exactly when it holds one of `&`, `<`, `>`. */
  lemma EscapeFixpoint(text: string)
    ensures HtmlEscape(text) == text <==> ('&' !in text && '<' !in text && '>' !in text)
  {
    EscapeGrows(text);
  }

  lemma {:induction false} EscapeGrows(text: string)
    ensures |FlatMap(text, EscapeToken)| >= |text|
    ensures ('&' in text || '<' in text || '>' in text) ==> |FlatMap(text, EscapeToken)| > |text|
    ensures ('&' !in text && '<' !in text && '>' !in text) ==> FlatMap(text, EscapeToken) == text
  {
    if text != [] {
      EscapeGrows(text[1..]);
      assert text == [text[0]] + text[1..];
    }
  }

  /** A character that is none of the characters escaping writes stays
      absent: escaping never introduces anything but entities. */
  lemma {:induction false} EscapeAbsent(text: string, c: char)
    requires c !in text && c !in "&amp;&lt;&gt;"
    ensures c !in HtmlEscape(text)
  {
    if text != [] {
      EscapeAbsent(text[1..], c);
      assert c !in EscapeToken(text[0]);
    }
  }

}

=== FILE: fences.dfy ===
/** The text a closed code fence becomes: `code:` followed by the fenced
    lines joined with newlines, each backslash doubled and each newline
    written as the two characters `\n`, so the block fits on one line. */
module Fences {
  import opened Strings

  function CodeText(code: seq<string>): string {
    "code:" + ReplaceAll(ReplaceAll(Join(code, "\n"), "\\", "\\\\"), "\n", "\\n")
  }

  /** The text is `code:` and then one line from which unquoting gives back
      the fenced lines joined with newlines. */
  lemma CodeTextShape(code: seq<string>)
    ensures var r := CodeText(code);
      && StartsWith(r, "code:")
      && '\n' !in r
      && Unquote(r[5..]) == Join(code, "\n")
  {
    var raw := Join(code, "\n");
    QuoteTokenwise(raw);
    NoNewline(raw);
    UnquoteTokens(raw);
    var r := CodeText(code);
    assert r[5..] == ReplaceAll(ReplaceAll(raw, "\\", "\\\\"), "\n", "\\n");
  }

  /** What each character of the joined code becomes. */
  function QuoteToken(c: char): string {
    if c == '\\' then "\\\\" else if c == '\n' then "\\n" else [c]
  }

  /** The string after the first `replace`, token by token. */
  function DoubleBackslash(c: char): string {
    if c == '\\' then "\\\\" else [c]
  }

  lemma QuoteTokenwise(raw: string)
    ensures ReplaceAll(ReplaceAll(raw, "\\", "\\\\"), "\n", "\\n") == FlatMap(raw, QuoteToken)
  {
    FlatMapKeep(raw);
    forall c
      ensures (Keep(c) == "\\" && DoubleBackslash(c) == "\\\\")
           || (Inert(Keep(c), "\\") && DoubleBackslash(c) == Keep(c))
    {
    }
    ReplaceTokens(raw, Keep, DoubleBackslash, "\\", "\\\\");
    forall c
      ensures (DoubleBackslash(c) == "\n" && QuoteToken(c) == "\\n")
           || (Inert(DoubleBackslash(c), "\n") && QuoteToken(c) == DoubleBackslash(c))
    {
    }
    ReplaceTokens(raw, DoubleBackslash, QuoteToken, "\n", "\\n");
  }

  lemma {:induction false} NoNewline(raw: string)
    ensures '\n' !in FlatMap(raw, QuoteToken)
  {
    if raw != [] {
      NoNewline(raw[1..]);
    }
  }

  /** The inverse reading: `\\` is one backslash, `\n` a newline, and every
      other character stands for itself. */
  function Unquote(s: string): string {
    if |s| >= 2 && s[0] == '\\' && s[1] == '\\' then "\\" + Unquote(s[2..])
    else if |s| >= 2 && s[0] == '\\' && s[1] == 'n' then "\n" + Unquote(s[2..])
    else if s == [] then []
    else [s[0]] + Unquote(s[1..])
  }

  lemma {:induction false} UnquoteTokens(raw: string)
    ensures Unquote(FlatMap(raw, QuoteToken)) == raw
  {
    if raw != [] {
      UnquoteTokens(raw[1..]);
      var rest := FlatMap(raw[1..], QuoteToken);
      var t := QuoteToken(raw[0]);
      if raw[0] == '\\' || raw[0] == '\n' {
        assert (t + rest)[2..] == rest;
      } else {
        assert (t + rest)[1..] == rest;
      }
    }
  }

}

=== FILE: invariants.dfy ===
/** What the block assembler of md2wechat.py keeps true from one line to the
    next, and what it therefore guarantees about the whole output:

    - the top banner is the very first part of the output when the first
      fragment is a block, and appears nowhere else;
    - the bottom banner is the very last part of the last block, directly
      before the end marker, and appears nowhere else;
    - the `#` headings carry the indices 1, 2, 3, ... in output order. */
module Invariants {
  import opened Options
  import opened Strings
  import opened Markdown
  import opened Lists
  import opened Tables
  import opened Fences
  import opened Parser

  function PartsOf(f: Fragment): seq<Part> {
    if f.Block? then f.parts else []
  }

  /** The parts of all blocks among `frags`, in order. */
  function Parts(frags: seq<Fragment>): seq<Part> {
    if frags == [] then [] else Parts(frags[..|frags| - 1]) + PartsOf(frags[|frags| - 1])
  }

  lemma PartsSnoc(frags: seq<Fragment>, f: Fragment)
    ensures Parts(frags + [f]) == Parts(frags) + PartsOf(f)
  {
    assert (frags + [f])[..|frags|] == frags;
  }

  lemma {:induction false} PartsCons(frags: seq<Fragment>)
    requires frags != []
    ensures Parts(frags) == PartsOf(frags[0]) + Parts(frags[1..])
    decreases |frags|
  {
    if |frags| > 1 {
      var init := frags[..|frags| - 1];
      PartsCons(init);
      assert init[1..] == frags[1..][..|frags| - 2];
    }
  }

  /** The parts of the open block, if any. */
  function Pending(block: Option<seq<Part>>): seq<Part> {
    if block.Some? then block.value else []
  }

  /** Every part emitted so far, closed blocks first. */
  function Emitted(out: seq<Fragment>, block: Option<seq<Part>>): seq<Part> {
    Parts(out) + Pending(block)
  }

  function AllParts(st: State): seq<Part> {
    Emitted(st.out, st.block)
  }

  /** The indices of the `#` headings among `ps`, in order. */
  function H1s(ps: seq<Part>): seq<nat> {
    if ps == [] then []
    else H1s(ps[..|ps| - 1]) + (if ps[|ps| - 1].Heading1? then [ps[|ps| - 1].index] else [])
  }

  lemma {:induction false} H1sAppend(a: seq<Part>, b: seq<Part>)
    ensures H1s(a + b) == H1s(a) + H1s(b)
    decreases |b|
  {
    if b == [] {
      assert a + b == a;
    } else {
      var b' := b[..|b| - 1];
      assert (a + b)[..|a + b| - 1] == a + b';
      H1sAppend(a, b');
    }
  }

  lemma {:induction false} NoHeadings(ps: seq<Part>)
    requires forall k :: 0 <= k < |ps| ==> !ps[k].Heading1?
    ensures H1s(ps) == []
  {
    if ps != [] {
      NoHeadings(ps[..|ps| - 1]);
    }
  }

  /** `1, 2, ..., n`. */
  function Upto(n: nat): (r: seq<nat>)
    ensures |r| == n
    ensures forall k :: 0 <= k < n ==> r[k] == k + 1
  {
    if n == 0 then [] else Upto(n - 1) + [n]
  }

  /** The first fragment is, or will be, a block. */
  predicate FirstIsBlock(out: seq<Fragment>, block: Option<seq<Part>>) {
    if out != [] then out[0].Block? else block.Some?
  }

  predicate Leads(st: State) {
    FirstIsBlock(st.out, st.block)
  }

  /** Where the top banner may be: first of all parts, when the first
      fragment is a block, and nowhere else. */
  ghost predicate TopPlaced(out: seq<Fragment>, block: Option<seq<Part>>) {
    var p := Emitted(out, block);
    && (forall k :: 1 <= k < |p| ==> p[k] != TopBanner)
    && (out != [] && out[0].Block? ==> out[0].parts != [] && out[0].parts[0] == TopBanner)
    && (out == [] && block.Some? ==> block.value != [] && block.value[0] == TopBanner)
    && (!FirstIsBlock(out, block) ==> TopBanner !in p)
  }

  ghost predicate TopOk(st: State) {
    TopPlaced(st.out, st.block)
  }

  /** The assembler invariant, on the fields it is about. */
  ghost predicate Inv(out: seq<Fragment>, block: Option<seq<Part>>, h1Count: nat) {
    && BottomBanner !in Emitted(out, block)
    && EndMarker !in out
    && H1s(Emitted(out, block)) == Upto(h1Count)
    && TopPlaced(out, block)
  }

  ghost predicate Wf(st: State) {
    Inv(st.out, st.block, st.h1Count)
  }

  lemma InitWf()
    ensures Wf(Init)
  {
  }

  // ---------------------------------------------------------------------
  // The block operations and the invariant.

  /** Opening a block adds the top banner exactly when nothing is emitted
      and no block is open. */
  lemma OpenParts(st: State)
    ensures AllParts(OpenBlock(st)) == AllParts(st) + (if st.block.None? && st.out == [] then [TopBanner] else [])
    ensures TopOk(st) ==> TopOk(OpenBlock(st))
  {
    if st.block.None? && st.out == [] {
      assert AllParts(st) == [];
    }
  }

  lemma AddParts(st: State, ps: seq<Part>)
    ensures AllParts(Add(st, ps)) == AllParts(OpenBlock(st)) + ps
    ensures TopOk(st) && TopBanner !in ps ==> TopOk(Add(st, ps))
  {
    OpenParts(st);
    var o := OpenBlock(st);
    assert AllParts(Add(st, ps)) == Parts(o.out) + (o.block.value + ps);
    if TopOk(st) && TopBanner !in ps {
      var p := AllParts(Add(st, ps));
      assert p == AllParts(o) + ps;
      forall k | 1 <= k < |p|
        ensures p[k] != TopBanner
      {
        if k >= |AllParts(o)| {
          assert p[k] == ps[k - |AllParts(o)|];
        }
      }
    }
  }

  lemma CloseParts(st: State)
    ensures AllParts(CloseBlock(st)) == AllParts(st)
    ensures Leads(CloseBlock(st)) == Leads(st)
    ensures TopOk(st) ==> TopOk(CloseBlock(st))
  {
    if st.block.Some? {
      PartsSnoc(st.out, Block(st.block.value));
    }
  }

  lemma RuleParts(st: State)
    ensures AllParts(AddRule(st)) == AllParts(st)
    ensures TopOk(st) ==> TopOk(AddRule(st))
  {
    CloseParts(st);
    var c := CloseBlock(st);
    PartsSnoc(c.out, Rule);
  }

  /** Appending parts without banners, whose headings continue the count up
      to `k`, keeps the invariant. */
  lemma AddWf(st: State, ps: seq<Part>, k: nat)
    requires Wf(st)
    requires TopBanner !in ps && BottomBanner !in ps
    requires Upto(st.h1Count) + H1s(ps) == Upto(k)
    ensures Inv(Add(st, ps).out, Add(st, ps).block, k)
  {
    OpenParts(st);
    AddParts(st, ps);
    var top: seq<Part> := if st.block.None? && st.out == [] then [TopBanner] else [];
    assert H1s(top) == [];
    H1sAppend(AllParts(st), top);
    H1sAppend(AllParts(st) + top, ps);
  }

  lemma CloseWf(st: State)
    requires Wf(st)
    ensures Wf(CloseBlock(st))
    ensures Inv(CloseBlock(st).out, CloseBlock(st).block, st.h1Count)
  {
    CloseParts(st);
  }

  // ---------------------------------------------------------------------
  // The loop and the invariant.

  /** A part that is neither banner nor `#` heading. */
  predicate Plain(p: Part) {
    !p.TopBanner? && !p.BottomBanner? && !p.Heading1?
  }

  /** Appending one plain part, then moving the cursor, keeps the invariant. */
  lemma PlainWf(st: State, p: Part, e: nat)
    requires Wf(st) && Plain(p)
    ensures Wf(AddAt(st, [p], e))
  {
    assert H1s([p]) == [];
    assert Upto(st.h1Count) + [] == Upto(st.h1Count);
    AddWf(st, [p], st.h1Count);
  }

  // Each branch is first rewritten to the block operation it performs, in
  // a lemma of its own, and only then related to the invariant.

  lemma StepIs(lines: seq<string>, st: State)
    requires st.pos < |lines|
    ensures var line := lines[st.pos];
      && (st.fence.Some? ==> Step(lines, st) == FenceStep(line, st.fence.value, st))
      && (st.fence.None? ==> KindHolds(line, Classify(line))
                             && Step(lines, st) == Dispatch(lines, st, Classify(line)))
  {
    ClassifyGroups(lines[st.pos]);
  }

  lemma StepWf(lines: seq<string>, st: State)
    requires st.pos < |lines| && Wf(st)
    ensures Wf(Step(lines, st))
  {
    StepIs(lines, st);
    if st.fence.Some? {
      FenceWf(lines[st.pos], st.fence.value, st);
    } else {
      DispatchWf(lines, st, Classify(lines[st.pos]));
    }
  }

  lemma FenceIs(line: string, f: string, st: State)
    ensures StartsWith(Strip(line), f) ==>
      FenceStep(line, f, st) == AddAt(st.(fence := None, code := []), [Text(CodeText(st.code))], st.pos + 1)
    ensures !StartsWith(Strip(line), f) ==>
      var r := FenceStep(line, f, st);
      r.out == st.out && r.block == st.block && r.h1Count == st.h1Count
  {
  }

  lemma FenceWf(line: string, f: string, st: State)
    requires Wf(st)
    ensures Wf(FenceStep(line, f, st))
  {
    FenceIs(line, f, st);
    if StartsWith(Strip(line), f) {
      PlainWf(st.(fence := None, code := []), Text(CodeText(st.code)), st.pos + 1);
    }
  }

  lemma DispatchIs(lines: seq<string>, st: State, kind: LineKind)
    requires st.pos < |lines| && KindHolds(lines[st.pos], kind)
    ensures var r, next := Dispatch(lines, st, kind), st.pos + 1;
      && (kind.BlankLine? ==> r == AddBlank(st).(pos := next))
      && (kind.RuleLine? ==> r == AddRule(st).(pos := next))
      && (kind.FenceLine? ==> r == st.(fence := Some(kind.fence), code := [], pos := next))
      && (kind.ImageLine? ==> r == AddAt(st, ImageParts(lines[st.pos]), next))
      && (kind.H1Line? ==> r == Add(st, [Heading1(st.h1Count + 1, Strip(kind.group))]).(h1Count := st.h1Count + 1, pos := next))
      && (kind.H2Line? ==> r == AddAt(st, [Heading2(Strip(kind.group))], next))
      && (kind.QuoteLine? ==> r == QuoteStep(lines, st))
      && (kind.ListLine? ==> r == ListStep(lines, st))
      && (kind.PipeLine? ==> r == TableStep(lines, st))
      && (kind.PlainLine? ==> r == Paragraph(lines, st))
  {
    match kind
    case BlankLine =>
    case RuleLine =>
    case FenceLine(_) =>
    case ImageLine =>
    case H1Line(_) =>
    case H2Line(_) =>
    case QuoteLine(_) =>
    case ListLine(_) =>
    case PipeLine =>
    case PlainLine =>
  }

  lemma DispatchWf(lines: seq<string>, st: State, kind: LineKind)
    requires st.pos < |lines| && KindHolds(lines[st.pos], kind) && Wf(st)
    ensures Wf(Dispatch(lines, st, kind))
  {
    var next := st.pos + 1;
    DispatchIs(lines, st, kind);
    match kind
    case BlankLine => BlankWf(st, next);
    case RuleLine => RuleWf(st, next);
    case FenceLine(f) =>
    case ImageLine => ImageWf(st, lines[st.pos], next);
    case H1Line(g) => HeadingWf(st, g, next);
    case H2Line(g) => PlainWf(st, Heading2(Strip(g)), next);
    case QuoteLine(_) => QuoteWf(lines, st);
    case ListLine(_) => ListWf(lines, st);
    case PipeLine => TableWf(lines, st);
    case PlainLine => ParagraphWf(lines, st);
  }

  lemma BlankWf(st: State, e: nat)
    requires Wf(st)
    ensures Wf(AddBlank(st).(pos := e))
  {
    AddWf(st, [Blank], st.h1Count);
    CloseWf(Add(st, [Blank]));
  }

  lemma RuleWf(st: State, e: nat)
    requires Wf(st)
    ensures Wf(AddRule(st).(pos := e))
  {
    RuleParts(st);
  }

  lemma ImageWf(st: State, line: string, e: nat)
    requires Wf(st)
    ensures Wf(AddAt(st, ImageParts(line), e))
  {
    NoHeadings(ImageParts(line));
    AddWf(st, ImageParts(line), st.h1Count);
  }

  lemma HeadingWf(st: State, g: string, e: nat)
    requires Wf(st)
    ensures Wf(Add(st, [Heading1(st.h1Count + 1, Strip(g))]).(h1Count := st.h1Count + 1, pos := e))
  {
    AddWf(st, [Heading1(st.h1Count + 1, Strip(g))], st.h1Count + 1);
  }

  lemma QuoteIs(lines: seq<string>, st: State, sp: (seq<string>, nat))
    requires st.pos < |lines| && QuoteGroup(lines[st.pos]).Some?
    requires sp == Span(lines, st.pos, QuoteGroup)
    ensures QuoteStep(lines, st) == AddAt(st, [Quote(sp.0)], sp.1)
  {
    var r := AddAt(st, [Quote(sp.0)], sp.1);
    assert QuoteStep(lines, st) == r;
  }

  lemma QuoteWf(lines: seq<string>, st: State)
    requires st.pos < |lines| && QuoteGroup(lines[st.pos]).Some? && Wf(st)
    ensures Wf(QuoteStep(lines, st))
  {
    var sp := Span(lines, st.pos, QuoteGroup);
    QuoteIs(lines, st, sp);
    PlainWf(st, Quote(sp.0), sp.1);
  }

  lemma ListIs(lines: seq<string>, st: State, run: (seq<Item>, nat))
    requires st.pos < |lines| && ItemOf(lines[st.pos]).Some? && run == ListRun(lines, st.pos)
    ensures ListStep(lines, st) == AddAt(st, [ListBlock(run.0)], run.1)
  {
    var b := ListBlock(run.0);
    var r := AddAt(st, [b], run.1);
    assert ListStep(lines, st) == r;
  }

  lemma ListWf(lines: seq<string>, st: State)
    requires st.pos < |lines| && ItemOf(lines[st.pos]).Some? && Wf(st)
    ensures Wf(ListStep(lines, st))
  {
    var run := ListRun(lines, st.pos);
    ListIs(lines, st, run);
    PlainWf(st, ListBlock(run.0), run.1);
  }

  lemma TableIs(lines: seq<string>, st: State)
    requires st.pos < |lines|
    ensures var r := ParseTable(lines, st.pos);
      && (r.Some? ==> TableStep(lines, st) == AddAt(st, [TableBlock(r.value.0)], st.pos + r.value.1))
      && (r.None? ==> TableStep(lines, st) == Paragraph(lines, st))
  {
  }

  lemma TableWf(lines: seq<string>, st: State)
    requires st.pos < |lines| && Wf(st)
    ensures Wf(TableStep(lines, st))
  {
    var r := ParseTable(lines, st.pos);
    TableIs(lines, st);
    if r.Some? {
      PlainWf(st, TableBlock(r.value.0), st.pos + r.value.1);
    } else {
      ParagraphWf(lines, st);
    }
  }

  lemma ParagraphIs(lines: seq<string>, st: State, e: nat)
    requires st.pos < |lines| && e == RunWhile(lines, st.pos + 1, Continues)
    ensures Paragraph(lines, st) == AddAt(st, [Text(ParagraphText(lines, st.pos, e))], e)
  {
    var t := ParagraphText(lines, st.pos, e);
    var r := AddAt(st, [Text(t)], e);
    assert Paragraph(lines, st) == r;
  }

  lemma ParagraphWf(lines: seq<string>, st: State)
    requires st.pos < |lines| && Wf(st)
    ensures Wf(Paragraph(lines, st))
  {
    var e := RunWhile(lines, st.pos + 1, Continues);
    ParagraphIs(lines, st, e);
    PlainWf(st, Text(ParagraphText(lines, st.pos, e)), e);
  }

  lemma {:induction false} RunWf(lines: seq<string>, st: State)
    requires st.pos <= |lines| && Wf(st)
    ensures Wf(Run(lines, st))
    decreases |lines| - st.pos
  {
    if st.pos < |lines| {
      StepWf(lines, st);
      RunWf(lines, Step(lines, st));
    }
  }

}

=== FILE: lists.dfy ===
/** `_parse_list` of md2wechat.py: the run of list-item lines, the depth each
    item gets from its indentation, the stack of open list frames, and the
    markup the frames and items turn into. */
module Lists {
  import opened Options
  import opened Strings
  import opened Escape
  import opened Markdown

  datatype Item = Item(depth: nat, kind: Kind, text: string)

  /** `len(indent.replace('\t', '    '))`: tabs count four columns. */
  function IndentWidth(indent: string): (w: nat)
    ensures w == |indent| + 3 * CountChar(indent, '\t')
  {
    TabsExpanded(indent);
    |ReplaceAll(indent, "\t", "    ")|
  }

  function ExpandTab(c: char): string {
    if c == '\t' then "    " else [c]
  }

  lemma {:induction false} ExpandTabLength(s: string)
    ensures |FlatMap(s, ExpandTab)| == |s| + 3 * CountChar(s, '\t')
  {
    if s != [] {
      ExpandTabLength(s[1..]);
    }
  }

  lemma TabsExpanded(indent: string)
    ensures |ReplaceAll(indent, "\t", "    ")| == |indent| + 3 * CountChar(indent, '\t')
  {
    FlatMapKeep(indent);
    forall c
      ensures (Keep(c) == "\t" && ExpandTab(c) == "    ") || (Inert(Keep(c), "\t") && ExpandTab(c) == Keep(c))
    {
    }
    ReplaceTokens(indent, Keep, ExpandTab, "\t", "    ");
    ExpandTabLength(indent);
  }

  /** Two columns per level; an unindented item is at depth 1. */
  function Depth(indent: string): (d: nat)
    ensures d >= 1
    ensures 2 * (d - 1) <= |indent| + 3 * CountChar(indent, '\t') < 2 * d
  {
    IndentWidth(indent) / 2 + 1
  }

  /** The item a line holds, if it matches `RE_OL` or `RE_UL`: its depth,
      two columns of indentation per level with a tab counting four, its
      kind, and its text with the surrounding whitespace cut away. */
  function ItemOf(line: string): (r: Option<Item>)
    ensures r.Some? <==> ListMatch(line).Some?
    ensures r.Some? ==> r.value.kind == ListMatch(line).value.kind
    ensures r.Some? ==> var w := |ListMatch(line).value.indent| + 3 * CountChar(ListMatch(line).value.indent, '\t');
      2 * (r.value.depth - 1) <= w < 2 * r.value.depth
    ensures r.Some? ==> Trimmed(ListMatch(line).value.body, r.value.text)
    ensures r.Some? ==> r.value.text == [] || (!IsSpace(r.value.text[0]) && !IsSpace(r.value.text[|r.value.text| - 1]))
  {
    match ListMatch(line)
    case Some(m) => StripPadding(m.body); Some(Item(Depth(m.indent), m.kind, Strip(m.body)))
    case None => None
  }

  /** The loop collecting items: the maximal run of lines from `i` on that
      match `RE_OL` or `RE_UL`, and the index just past it. */
  function ListRun(lines: seq<string>, i: nat): (r: (seq<Item>, nat))
    requires i <= |lines|
    ensures i <= r.1 <= |lines|
    ensures |r.0| == r.1 - i
  {
    Span(lines, i, ItemOf)
  }

  /** Every line of the run is a list item, in order, and the line after the
      run is not. */
  lemma ListRunItems(lines: seq<string>, i: nat)
    requires i <= |lines|
    ensures var r := ListRun(lines, i);
      && (forall j :: 0 <= j < |r.0| ==> ItemOf(lines[i + j]) == Some(r.0[j]))
      && (r.1 == |lines| || ListMatch(lines[r.1]).None?)
  {
    SpanMatches(lines, i, ItemOf);
  }

  const UlTypes: seq<string> := ["disc", "square", "circle"]
  const OlTypes: seq<string> := ["decimal", "lower-alpha", "lower-roman", "upper-alpha"]

  /** `ul_type_by_depth`: Python's `%` by a positive length is never
      negative, like Dafny's, so the index is always in range. */
  function UlStyle(depth: int): (s: string)
    ensures s in UlTypes
  {
    UlTypes[(depth - 1) % |UlTypes|]
  }

  /** `ol_type_by_depth`. */
  function OlStyle(depth: int): (s: string)
    ensures s in OlTypes
  {
    OlTypes[(depth - 1) % |OlTypes|]
  }

  /** The styles repeat with the length of their cycle, starting at depth 1. */
  lemma StyleCycles(depth: int)
    ensures UlStyle(depth + 3) == UlStyle(depth)
    ensures OlStyle(depth + 4) == OlStyle(depth)
    ensures UlStyle(1) == "disc" && UlStyle(2) == "square" && UlStyle(3) == "circle"
    ensures OlStyle(1) == "decimal" && OlStyle(2) == "lower-alpha"
    ensures OlStyle(3) == "lower-roman" && OlStyle(4) == "upper-alpha"
  {
    assert (depth + 3 - 1) % 3 == (depth - 1) % 3;
    assert (depth + 4 - 1) % 4 == (depth - 1) % 4;
  }

  // ---------------------------------------------------------------------
  // The frame stack

  /** One open `<ul>`/`<ol>`; the top of the stack is the last frame. */
  datatype Frame = Frame(kind: Kind, depth: nat)

  /** What the builder appends to its output, in order. */
  datatype Event = Open(kind: Kind, depth: nat) | Li(kind: Kind, text: string) | Close(kind: Kind)

  /** Depths strictly increase from the bottom of the stack to the top. */
  ghost predicate Increasing(stack: seq<Frame>) {
    forall a, b :: 0 <= a < b < |stack| ==> stack[a].depth < stack[b].depth
  }

  function Top(stack: seq<Frame>): Frame
    requires stack != []
  {
    stack[|stack| - 1]
  }

  /** How many frames the `while` loop of the else branch keeps: it pops
      while the top is deeper than the item or of the other kind. */
  function Kept(stack: seq<Frame>, depth: nat, kind: Kind): (n: nat)
    ensures n <= |stack|
    ensures n > 0 ==> stack[n - 1].depth <= depth && stack[n - 1].kind == kind
    ensures forall j :: n <= j < |stack| ==> stack[j].depth > depth || stack[j].kind != kind
    decreases |stack|
  {
    if stack != [] && (Top(stack).depth > depth || Top(stack).kind != kind) then
      var init := stack[..|stack| - 1];
      assert forall j :: 0 <= j < |init| ==> init[j] == stack[j];
      Kept(init, depth, kind)
    else |stack|
  }

  /** The `while` loop of the else branch: the closing tags of the popped
      frames and the frames that stay. */
  function CloseWhile(stack: seq<Frame>, depth: nat, kind: Kind): (r: (seq<Event>, seq<Frame>))
    ensures |r.1| <= |stack| && r.1 == stack[..|r.1|]
    ensures r.1 != [] ==> Top(r.1).depth <= depth && Top(r.1).kind == kind
    ensures r.0 == CloseEvents(stack[|r.1|..])
    ensures forall j :: |r.1| <= j < |stack| ==> stack[j].depth > depth || stack[j].kind != kind
  {
    var n := Kept(stack, depth, kind);
    (CloseEvents(stack[n..]), stack[..n])
  }

  /** The closing tags of a stack segment, innermost first. */
  function CloseEvents(frames: seq<Frame>): seq<Event> {
    if frames == [] then [] else [Close(Top(frames).kind)] + CloseEvents(frames[..|frames| - 1])
  }

  lemma CloseEventsAppend(frames: seq<Frame>, f: Frame)
    ensures CloseEvents(frames + [f]) == [Close(f.kind)] + CloseEvents(frames)
  {
    assert (frames + [f])[..|frames|] == frames;
  }

  /** The open/close decision for one item, before its `<li>` is emitted. */
  function Place(stack: seq<Frame>, item: Item): (r: (seq<Event>, seq<Frame>))
  {
    if stack == [] || item.depth > Top(stack).depth then
      ([Open(item.kind, item.depth)], stack + [Frame(item.kind, item.depth)])
    else
      var cw := CloseWhile(stack, item.depth, item.kind);
      var kept := cw.1;
      if kept == [] || Top(kept).depth < item.depth || Top(kept).kind != item.kind then
        (cw.0 + [Open(item.kind, item.depth)], kept + [Frame(item.kind, item.depth)])
      else cw
  }

  /** After an item is placed the stack is still increasing and its top is
      the item's own kind and depth. */
  lemma PlaceKeepsStack(stack: seq<Frame>, item: Item)
    requires Increasing(stack)
    ensures Increasing(Place(stack, item).1)
    ensures Place(stack, item).1 != [] && Top(Place(stack, item).1) == Frame(item.kind, item.depth)
    ensures Replay(stack, Place(stack, item).0) == Some(Place(stack, item).1)
  {
    if stack == [] || item.depth > Top(stack).depth {
    } else {
      var cw := CloseWhile(stack, item.depth, item.kind);
      var closes, kept := cw.0, cw.1;
      ReplayCloses(stack, |kept|);
      if kept == [] || Top(kept).depth < item.depth || Top(kept).kind != item.kind {
        ReplayAppend(stack, closes, [Open(item.kind, item.depth)]);
      }
    }
  }

  /** The items' markup: place each, emit its `<li>`, close everything left. */
  function Build(items: seq<Item>, stack: seq<Frame>): seq<Event>
  {
    if items == [] then CloseEvents(stack)
    else
      var pl := Place(stack, items[0]);
      pl.0 + [Li(items[0].kind, items[0].text)] + Build(items[1..], pl.1)
  }

  // ---------------------------------------------------------------------
  // Well-nesting of the emitted markup

  /** Runs the events against a stack: an open pushes, a close must match
      the top's kind and pops it, an item must sit in an open list of its
      own kind. `None` when the markup would be ill-nested. */
  function Replay(stack: seq<Frame>, evs: seq<Event>): Option<seq<Frame>>
    decreases |evs|
  {
    if evs == [] then Some(stack)
    else match evs[0]
      case Open(k, d) => Replay(stack + [Frame(k, d)], evs[1..])
      case Close(k) =>
        if stack != [] && Top(stack).kind == k then Replay(stack[..|stack| - 1], evs[1..]) else None
      case Li(k, _) =>
        if stack != [] && Top(stack).kind == k then Replay(stack, evs[1..]) else None
  }

  lemma {:induction false} ReplayAppend(stack: seq<Frame>, a: seq<Event>, b: seq<Event>)
    requires Replay(stack, a).Some?
    ensures Replay(stack, a + b) == Replay(Replay(stack, a).value, b)
    decreases |a|
  {
    if a == [] {
      assert a + b == b;
    } else {
      assert (a + b)[1..] == a[1..] + b;
      match a[0]
      case Open(k, d) => ReplayAppend(stack + [Frame(k, d)], a[1..], b);
      case Close(k) => ReplayAppend(stack[..|stack| - 1], a[1..], b);
      case Li(k, _) => ReplayAppend(stack, a[1..], b);
    }
  }

  /** Closing the top `|stack| - n` frames leaves the bottom `n`. */
  lemma {:induction false} ReplayCloses(stack: seq<Frame>, n: nat)
    requires n <= |stack|
    ensures Replay(stack, CloseEvents(stack[n..])) == Some(stack[..n])
    decreases |stack| - n
  {
    if n < |stack| {
      var frames := stack[n..];
      assert frames[..|frames| - 1] == stack[..|stack| - 1][n..];
      assert Top(frames) == Top(stack);
      ReplayCloses(stack[..|stack| - 1], n);
      assert stack[..|stack| - 1][..n] == stack[..n];
    } else {
      assert stack[n..] == [];
      assert stack[..n] == stack;
    }
  }

  /** The builder's output is well nested: every close matches the open
      list on top, every `<li>` is directly inside a list of its kind, and
      every list opened is closed by the end. */
  lemma {:induction false} BuildBalanced(items: seq<Item>, stack: seq<Frame>)
    requires Increasing(stack)
    ensures Replay(stack, Build(items, stack)) == Some([])
    decreases |items|
  {
    if items == [] {
      ReplayCloses(stack, 0);
    } else {
      var pl := Place(stack, items[0]);
      var evs, next := pl.0, pl.1;
      var li := [Li(items[0].kind, items[0].text)];
      var rest := Build(items[1..], next);
      PlaceKeepsStack(stack, items[0]);
      BuildStep(items, stack);
      ReplayAppend(stack, evs, li + rest);
      ReplayAppend(next, li, rest);
      BuildBalanced(items[1..], next);
    }
  }

  lemma BuildStep(items: seq<Item>, stack: seq<Frame>)
    requires items != []
    ensures var pl := Place(stack, items[0]);
      Build(items, stack) == pl.0 + ([Li(items[0].kind, items[0].text)] + Build(items[1..], pl.1))
  {
  }

  /** The `<li>` texts of an event sequence, in order. */
  function Texts(evs: seq<Event>): seq<string> {
    if evs == [] then []
    else (if evs[0].Li? then [evs[0].text] else []) + Texts(evs[1..])
  }

  lemma {:induction false} TextsAppend(a: seq<Event>, b: seq<Event>)
    ensures Texts(a + b) == Texts(a) + Texts(b)
  {
    if a == [] {
      assert a + b == b;
    } else {
      assert (a + b)[1..] == a[1..] + b;
      TextsAppend(a[1..], b);
    }
  }

  lemma {:induction false} CloseEventsNoText(frames: seq<Frame>)
    ensures Texts(CloseEvents(frames)) == []
    decreases |frames|
  {
    if frames != [] {
      CloseEventsNoText(frames[..|frames| - 1]);
    }
  }

  lemma PlaceNoText(stack: seq<Frame>, item: Item)
    ensures Texts(Place(stack, item).0) == []
  {
    if !(stack == [] || item.depth > Top(stack).depth) {
      var cw := CloseWhile(stack, item.depth, item.kind);
      var closes, kept := cw.0, cw.1;
      CloseEventsNoText(stack[|kept|..]);
      TextsAppend(closes, [Open(item.kind, item.depth)]);
    }
  }

  /** Exactly one `<li>` per item, carrying the items' texts in order. */
  lemma {:induction false} BuildTexts(items: seq<Item>, stack: seq<Frame>)
    ensures Texts(Build(items, stack)) == seq(|items|, k requires 0 <= k < |items| => items[k].text)
    decreases |items|
  {
    if items == [] {
      CloseEventsNoText(stack);
    } else {
      var pl := Place(stack, items[0]);
      var evs, next := pl.0, pl.1;
      PlaceNoText(stack, items[0]);
      var li := [Li(items[0].kind, items[0].text)];
      TextsAppend(evs + li, Build(items[1..], next));
      TextsAppend(evs, li);
      BuildTexts(items[1..], next);
    }
  }

  // ---------------------------------------------------------------------
  // Markup

  /** The `li_content_span` wrapper: `{text}` is filled first with the escaped
      text, then `{key}`, so a `{key}` typed by the user is rewritten too. */
  const LiHead: string :=
    "<section style=\"" + "margin-bottom: 8px;" + "font-size: 15px;" + "color:#333333;"
    + "letter-spacing: 1px;\"" + " data-mpa-md-content=\"t\"" + " data-mpa-md-key=\""
  const LiMid: string := "\" data-mpa-md-template=\"30005\">" + "<span leaf=\"\">"
  const LiTail: string := "</span></section>"

  function LiTemplate(): string {
    LiHead + "{key}" + LiMid + "{text}" + LiTail
  }

  function KeyOf(kind: Kind): string {
    if kind == Ordered then "ordered-list" else "bullet-list"
  }

  function LiHtml(kind: Kind, text: string): string {
    ReplaceAll(ReplaceAll(LiTemplate(), "{text}", HtmlEscape(text)), "{key}", KeyOf(kind))
  }

  function OpenTag(kind: Kind, depth: nat): string {
    var style := if kind == Unordered then UlStyle(depth) else OlStyle(depth);
    var css := "list-style-type: " + style + ";padding-left: 1.2em;color: rgb(37, 37, 37);width: fit-content;";
    (if kind == Unordered then "<ul style=\"" else "<ol style=\"") + css + "\" class=\"list-paddingleft-1\">"
  }

  function EventHtml(e: Event): string {
    match e
    case Open(k, d) => OpenTag(k, d)
    case Li(k, t) => "<li>" + LiHtml(k, t) + "</li>"
    case Close(k) => if k == Unordered then "</ul>" else "</ol>"
  }

  function EventsHtml(evs: seq<Event>): string {
    if evs == [] then [] else EventHtml(evs[0]) + EventsHtml(evs[1..])
  }

  /** The fragment `_parse_list` returns for a run of items. */
  function ListHtml(items: seq<Item>): string {
    EventsHtml(Build(items, []))
  }

  // ---------------------------------------------------------------------
  // What an item's markup holds.

  /** The fixed pieces of the item template hold no `{`. */
  lemma NoBraces()
    ensures '{' !in LiHead && '{' !in LiMid && '{' !in LiTail
  {
    HeadNoBrace();
  }

  lemma HeadNoBrace()
    ensures '{' !in LiHead
  {
    StyleNoBrace();
    assert '{' !in " data-mpa-md-content=\"t\"" + " data-mpa-md-key=\"";
  }

  lemma StyleNoBrace()
    ensures '{' !in "<section style=\"" + "margin-bottom: 8px;" + "font-size: 15px;"
                    + "color:#333333;" + "letter-spacing: 1px;\""
  {
    assert '{' !in "<section style=\"" + "margin-bottom: 8px;" + "font-size: 15px;";
    assert '{' !in "color:#333333;" + "letter-spacing: 1px;\"";
  }

  /** `ReplaceInert` and `ReplaceHit` take the text apart from the left, one
      piece and the rest, so a template written as `h + key + m + text + tl`
      must first be read as the right-nested `h + (key + (m + (text + tl)))`. */
  lemma Regroup(a: string, b: string, c: string, d: string, e: string)
    ensures a + b + c + d + e == a + (b + (c + (d + e)))
  {
    assert c + (d + e) == c + d + e;
    assert b + (c + d + e) == b + (c + d) + e;
    assert b + (c + d) == b + c + d;
    assert a + (b + c + d + e) == a + (b + c + d) + e;
    assert a + (b + c + d) == a + (b + c) + d;
    assert a + (b + c) == a + b + c;
  }

  /** Filling `{text}` in a template made of brace-free pieces around the
      two slots leaves the `{key}` slot in place. */
  lemma FillText(h: string, m: string, tl: string, e: string)
    requires '{' !in h && '{' !in m && '{' !in tl
    ensures ReplaceAll(h + "{key}" + m + "{text}" + tl, "{text}", e) == h + "{key}" + m + e + tl
  {
    var pat, key := "{text}", "{key}";
    var z := pat + tl;
    var y := m + z;
    var x := key + y;
    Regroup(h, key, m, pat, tl);
    ReplaceInert(h, x, pat, e);
    ReplaceInert(key, y, pat, e);
    ReplaceInert(m, z, pat, e);
    ReplaceHit(tl, pat, e);
    ReplaceAbsent(tl, pat, e);
    Regroup(h, key, m, e, tl);
  }

  /** Filling `{key}` afterwards, when the text slot holds no `{`. */
  lemma FillKey(h: string, m: string, tl: string, e: string, k: string)
    requires '{' !in h && '{' !in m && '{' !in tl && '{' !in e
    ensures ReplaceAll(h + "{key}" + m + e + tl, "{key}", k) == h + k + m + e + tl
  {
    var pat := "{key}";
    var z := e + tl;
    var y := m + z;
    var x := pat + y;
    Regroup(h, pat, m, e, tl);
    ReplaceInert(h, x, pat, k);
    ReplaceHit(y, pat, k);
    ReplaceInert(m, z, pat, k);
    ReplaceAbsent(z, pat, k);
    Regroup(h, k, m, e, tl);
  }

  /** Filling `{key}` afterwards, when the text slot holds `{key}` itself. */
  lemma FillKeyTwice(h: string, m: string, tl: string, k: string)
    requires '{' !in h && '{' !in m && '{' !in tl
    ensures ReplaceAll(h + "{key}" + m + "{key}" + tl, "{key}", k) == h + k + m + k + tl
  {
    var pat := "{key}";
    var z := pat + tl;
    var y := m + z;
    var x := pat + y;
    Regroup(h, pat, m, pat, tl);
    ReplaceInert(h, x, pat, k);
    ReplaceHit(y, pat, k);
    ReplaceInert(m, z, pat, k);
    ReplaceHit(tl, pat, k);
    ReplaceAbsent(tl, pat, k);
    Regroup(h, k, m, k, tl);
  }

  /** An item whose text has no `{` shows its escaped text in the span and
      its list kind in the key attribute. */
  lemma LiHtmlPlain(kind: Kind, text: string)
    requires '{' !in text
    ensures LiHtml(kind, text) == LiHead + KeyOf(kind) + LiMid + HtmlEscape(text) + LiTail
  {
    var e := HtmlEscape(text);
    NoBraces();
    EscapeAbsent(text, '{');
    FillText(LiHead, LiMid, LiTail, e);
    FillKey(LiHead, LiMid, LiTail, e, KeyOf(kind));
  }

  /** The order of the two replacements shows through: an item whose text is
      `{key}` displays the list kind instead of its own text. */
  lemma LiHtmlKeyQuirk(kind: Kind)
    ensures LiHtml(kind, "{key}") == LiHead + KeyOf(kind) + LiMid + KeyOf(kind) + LiTail
  {
    var pat := "{key}";
    assert HtmlEscape(pat) == pat by {
      EscapeFixpoint(pat);
    }
    NoBraces();
    FillText(LiHead, LiMid, LiTail, pat);
    FillKeyTwice(LiHead, LiMid, LiTail, KeyOf(kind));
  }

}

=== FILE: markdown.dfy ===
/** The line patterns of md2wechat.py (`RE_H1`, `RE_H2`, `RE_BLOCKQUOTE`,
    `RE_HR`, `RE_OL`, `RE_UL`, `RE_IMG`, the fence and pipe tests), written as
    predicates and group extractors, and the fixed-precedence line
    classification of the main loop.

    Lines come from `splitlines`, so no line holds a line break; the
    extractors rely on that where the patterns use `.` and `$`. */
module Markdown {
  import opened Options
  import opened Strings

  datatype Kind = Ordered | Unordered

  /** `line.strip() == ''`. */
  predicate IsBlank(line: string) {
    Strip(line) == []
  }

  /** The maximal leading-whitespace prefix, `^(\s*)` when followed by a
      non-whitespace character. */
  function Indentation(line: string): (ws: string)
    ensures ws + LStrip(line) == line
    ensures forall i :: 0 <= i < |ws| ==> IsSpace(ws[i])
  {
    line[..LeadingSpaces(line)]
  }

  predicate IsRuleChar(c: char) {
    c == '*' || c == '-'
  }

  /** `RE_HR = ^\s*([*-])\1\1[\s*-]*$`: three copies of one of `*`/`-`, then any
      mix of whitespace, `*` and `-`. */
  predicate IsRule(line: string) {
    var t := LStrip(line);
    && |t| >= 3
    && IsRuleChar(t[0]) && t[1] == t[0] && t[2] == t[0]
    && forall i :: 3 <= i < |t| ==> IsSpace(t[i]) || IsRuleChar(t[i])
  }

  /** The fence a line opens: `line.lstrip().startswith('```')`, else `'~~~'`. */
  function FenceOf(line: string): (r: Option<string>)
    ensures r.Some? ==> (r.value == "```" || r.value == "~~~") && StartsWith(LStrip(line), r.value)
    ensures r.None? ==> !StartsWith(LStrip(line), "```") && !StartsWith(LStrip(line), "~~~")
  {
    var t := LStrip(line);
    if StartsWith(t, "```") then Some("```")
    else if StartsWith(t, "~~~") then Some("~~~")
    else None
  }

  /** The first index `k >= from` with `s[k] == c`. */
  function FindFrom(s: string, c: char, from: nat): (r: Option<nat>)
    requires from <= |s|
    ensures r.Some? ==> from <= r.value < |s| && s[r.value] == c
                        && forall k :: from <= k < r.value ==> s[k] != c
    ensures r.None? ==> forall k :: from <= k < |s| ==> s[k] != c
    decreases |s| - from
  {
    if from == |s| then None
    else if s[from] == c then Some(from)
    else FindFrom(s, c, from + 1)
  }

  /** Where a match of `RE_IMG = !\[[^\]]*\]\(([^)]+)\)` starting at `i`
      ends. Neither bracket run can skip its closing character, so the match
      is decided by the first `]` after `![` and the first `)` after `(`. */
  function ImageEnd(s: string, i: nat): (r: Option<nat>)
    requires i <= |s|
    ensures r.Some? ==> i + 6 <= r.value <= |s|
  {
    if i + 1 < |s| && s[i] == '!' && s[i + 1] == '[' then
      match FindFrom(s, ']', i + 2)
      case None => None
      case Some(j) =>
        if j + 2 < |s| && s[j + 1] == '(' && s[j + 2] != ')' then
          match FindFrom(s, ')', j + 2)
          case None => None
          case Some(k) => Some(k + 1)
        else None
    else None
  }

  /** `RE_IMG.search(line)`. */
  predicate HasImage(line: string) {
    exists i :: 0 <= i < |line| && ImageEnd(line, i).Some?
  }

  /** `RE_IMG.sub('', line[i..])` scanning from position `i`: each match is
      dropped, every other character kept. */
  function RemoveImagesFrom(s: string, i: nat): string
    requires i <= |s|
    decreases |s| - i
  {
    if i == |s| then []
    else match ImageEnd(s, i)
      case Some(e) => RemoveImagesFrom(s, e)
      case None => [s[i]] + RemoveImagesFrom(s, i + 1)
  }

  function RemoveImages(line: string): string {
    RemoveImagesFrom(line, 0)
  }

  /** Removing the images changes a line exactly when it has one. */
  lemma RemoveImagesChanges(line: string)
    ensures RemoveImages(line) == line <==> !HasImage(line)
  {
    RemoveImagesShrinks(line, 0);
  }

  lemma {:induction false} RemoveImagesShrinks(s: string, i: nat)
    requires i <= |s|
    ensures |RemoveImagesFrom(s, i)| <= |s| - i
    ensures (exists p :: i <= p < |s| && ImageEnd(s, p).Some?) ==> |RemoveImagesFrom(s, i)| < |s| - i
    ensures (forall p :: i <= p < |s| ==> ImageEnd(s, p).None?) ==> RemoveImagesFrom(s, i) == s[i..]
    decreases |s| - i
  {
    if i < |s| {
      match ImageEnd(s, i)
      case Some(e) =>
        RemoveImagesShrinks(s, e);
      case None =>
        RemoveImagesShrinks(s, i + 1);
        assert s[i..] == [s[i]] + s[i + 1..];
    }
  }

  /** Group 1 of `RE_H1 = ^\s*#\s+(.*)$`. */
  function H1Group(line: string): Option<string> {
    var t := LStrip(line);
    if |t| >= 2 && t[0] == '#' && IsSpace(t[1]) then Some(LStrip(t[1..])) else None
  }

  /** Group 1 of `RE_H2 = ^\s*##\s+(.*)$`. */
  function H2Group(line: string): Option<string> {
    var t := LStrip(line);
    if |t| >= 3 && t[0] == '#' && t[1] == '#' && IsSpace(t[2]) then Some(LStrip(t[2..])) else None
  }

  /** Group 1 of `RE_BLOCKQUOTE = ^\s*>\s?(.*)$`: the text after `>` and at
      most one whitespace character. */
  function QuoteGroup(line: string): Option<string> {
    var t := LStrip(line);
    if |t| >= 1 && t[0] == '>' then
      Some(if |t| >= 2 && IsSpace(t[1]) then t[2..] else t[1..])
    else None
  }

  predicate IsDigit(c: char) {
    '0' <= c <= '9'
  }

  /** Length of the leading digit run. */
  function DigitRun(t: string): (d: nat)
    ensures d <= |t|
    ensures forall k :: 0 <= k < d ==> IsDigit(t[k])
    ensures d == |t| || !IsDigit(t[d])
  {
    if |t| > 0 && IsDigit(t[0]) then 1 + DigitRun(t[1..]) else 0
  }

  /** A list-item line: its indentation (group 1) and its text (group 3). */
  datatype ItemLine = ItemLine(indent: string, kind: Kind, body: string)

  /** `RE_OL = ^(\s*)(\d+)[\.)]\s+(.*)$`. */
  function OlMatch(line: string): Option<ItemLine> {
    var t := LStrip(line);
    var d := DigitRun(t);
    if d >= 1 && d + 1 < |t| && (t[d] == '.' || t[d] == ')') && IsSpace(t[d + 1]) then
      Some(ItemLine(Indentation(line), Ordered, LStrip(t[d + 1..])))
    else None
  }

  /** `RE_UL = ^(\s*)([\-\+\*])\s+(.*)$`. */
  function UlMatch(line: string): Option<ItemLine> {
    var t := LStrip(line);
    if |t| >= 2 && (t[0] == '-' || t[0] == '+' || t[0] == '*') && IsSpace(t[1]) then
      Some(ItemLine(Indentation(line), Unordered, LStrip(t[1..])))
    else None
  }

  /** `RE_OL.match(line) or RE_UL.match(line)`, ordered tried first. */
  function ListMatch(line: string): (r: Option<ItemLine>)
    ensures r.Some? <==> OlMatch(line).Some? || UlMatch(line).Some?
    ensures r.Some? ==> (r.value.kind == Ordered <==> OlMatch(line).Some?)
  {
    if OlMatch(line).Some? then OlMatch(line) else UlMatch(line)
  }

  /** The maximal run of lines from `i` on that a matcher accepts, with the
      matches, and the index just past the run. */
  function Span<T>(lines: seq<string>, i: nat, m: string -> Option<T>): (r: (seq<T>, nat))
    requires i <= |lines|
    ensures i <= r.1 <= |lines|
    ensures |r.0| == r.1 - i
    decreases |lines| - i
  {
    if i < |lines| && m(lines[i]).Some? then
      var rest := Span(lines, i + 1, m);
      ([m(lines[i]).value] + rest.0, rest.1)
    else ([], i)
  }

  /** Every line of the run matches, with the collected match, and the line
      after the run does not. */
  lemma {:induction false} SpanMatches<T>(lines: seq<string>, i: nat, m: string -> Option<T>)
    requires i <= |lines|
    ensures var r := Span(lines, i, m);
      && (forall j :: 0 <= j < |r.0| ==> m(lines[i + j]) == Some(r.0[j]))
      && (r.1 == |lines| || m(lines[r.1]).None?)
    decreases |lines| - i
  {
    if i < |lines| && m(lines[i]).Some? {
      SpanMatches(lines, i + 1, m);
      var rest := Span(lines, i + 1, m);
      var r := Span(lines, i, m);
      forall j | 0 <= j < |r.0|
        ensures m(lines[i + j]) == Some(r.0[j])
      {
        if j > 0 {
          assert r.0[j] == rest.0[j - 1];
          assert lines[i + j] == lines[(i + 1) + (j - 1)];
        }
      }
    }
  }

  /** The index just past the maximal run of lines from `i` on that satisfy `p`. */
  function RunWhile(lines: seq<string>, i: nat, p: string -> bool): (e: nat)
    requires i <= |lines|
    ensures i <= e <= |lines|
    decreases |lines| - i
  {
    if i < |lines| && p(lines[i]) then RunWhile(lines, i + 1, p) else i
  }

  /** Every line of the run satisfies `p` and the line after it does not. */
  lemma {:induction false} RunWhileStops(lines: seq<string>, i: nat, p: string -> bool)
    requires i <= |lines|
    ensures var e := RunWhile(lines, i, p);
      && (forall j :: i <= j < e ==> p(lines[j]))
      && (e == |lines| || !p(lines[e]))
    decreases |lines| - i
  {
    if i < |lines| && p(lines[i]) {
      RunWhileStops(lines, i + 1, p);
    }
  }

  /** The classification of a line outside a code fence; the constructors are
      listed in the order the main loop tries them, first match wins. */
  datatype LineKind =
    | BlankLine
    | RuleLine
    | FenceLine(fence: string)
    | ImageLine
    | H1Line(group: string)
    | H2Line(group: string)
    | QuoteLine(group: string)
    | ListLine(item: ItemLine)
    | PipeLine
    | PlainLine

  function Classify(line: string): LineKind {
    if IsBlank(line) then BlankLine
    else if IsRule(line) then RuleLine
    else if FenceOf(line).Some? then FenceLine(FenceOf(line).value)
    else if HasImage(line) then ImageLine
    else if H1Group(line).Some? then H1Line(H1Group(line).value)
    else if H2Group(line).Some? then H2Line(H2Group(line).value)
    else if QuoteGroup(line).Some? then QuoteLine(QuoteGroup(line).value)
    else if ListMatch(line).Some? then ListLine(ListMatch(line).value)
    else if '|' in line then PipeLine
    else PlainLine
  }

  /** The group or match a classification carries is the line's own. */
  lemma ClassifyGroups(line: string)
    ensures var k := Classify(line);
      && (k.FenceLine? ==> FenceOf(line) == Some(k.fence))
      && (k.H1Line? ==> H1Group(line) == Some(k.group))
      && (k.H2Line? ==> H2Group(line) == Some(k.group))
      && (k.QuoteLine? ==> QuoteGroup(line) == Some(k.group))
      && (k.ListLine? ==> ListMatch(line) == Some(k.item))
  {
    if IsBlank(line) {
    } else if IsRule(line) {
    } else if FenceOf(line).Some? {
    } else if HasImage(line) {
    } else if H1Group(line).Some? {
    } else if H2Group(line).Some? {
    } else if QuoteGroup(line).Some? {
    } else if ListMatch(line).Some? {
    }
  }

  /** The condition that ends a paragraph in the plain-text branch. */
  predicate EndsParagraph(peek: string) {
    || IsBlank(peek) || IsRule(peek) || H1Group(peek).Some? || H2Group(peek).Some?
    || QuoteGroup(peek).Some? || OlMatch(peek).Some? || UlMatch(peek).Some?
    || '|' in peek || FenceOf(peek).Some? || HasImage(peek)
  }

  /** The paragraph stop test, written separately in the source, stops
      exactly at the lines `Classify` does not class as plain text. Among
      them is a `|` line that forms no table, which the main loop still
      handles as plain text. */
  lemma EndsParagraphIsNotPlain(peek: string)
    ensures EndsParagraph(peek) <==> Classify(peek) != PlainLine
  {
  }

}

=== FILE: options.dfy ===
/** The "try, else reject" results used by the scanners: `None` is a rejection
    (a line that does not match a pattern, a table that fails validation). */
module Options {

  datatype Option<+T> = None | Some(value: T)

}

=== FILE: output.dfy ===
/** What `parse` guarantees about its whole output. */
module Output {
  import opened Parser
  import opened Invariants

  /** The output of `parse` as fragments: it ends with the end marker
      directly after a block whose last part is the bottom banner; the
      bottom banner is the last part of all and the only one; the top banner
      is there exactly when the first fragment is a block, as its first part,
      and nowhere else; the `#` headings are numbered 1, 2, 3, ... */
  lemma ParseShape(lines: seq<string>)
    ensures var frags := Parse(lines); var p := Parts(frags);
      && |frags| >= 2 && frags[|frags| - 1] == EndMarker
      && EndMarker !in frags[..|frags| - 1]
      && frags[|frags| - 2].Block? && frags[|frags| - 2].parts != []
      && frags[|frags| - 2].parts[|frags[|frags| - 2].parts| - 1] == BottomBanner
      && p != [] && p[|p| - 1] == BottomBanner && BottomBanner !in p[..|p| - 1]
      && (TopBanner in p <==> frags[0].Block?)
      && (frags[0].Block? ==> frags[0].parts != [] && frags[0].parts[0] == TopBanner)
      && (forall k :: 1 <= k < |p| ==> p[k] != TopBanner)
      && (forall k :: 0 <= k < |H1s(p)| ==> H1s(p)[k] == k + 1)
  {
    var st := Run(lines, Init);
    InitWf();
    RunWf(lines, Init);
    FinishShape(st);
    assert Parse(lines) == Finish(st);
  }

  /** `ParseShape` for the end of `parse` applied to any well-formed state. */
  lemma FinishShape(st: State)
    requires Wf(st)
    ensures var frags := Finish(st); var p := Parts(frags);
      && |frags| >= 2 && frags[|frags| - 1] == EndMarker
      && EndMarker !in frags[..|frags| - 1]
      && frags[|frags| - 2].Block? && frags[|frags| - 2].parts != []
      && frags[|frags| - 2].parts[|frags[|frags| - 2].parts| - 1] == BottomBanner
      && p != [] && p[|p| - 1] == BottomBanner && BottomBanner !in p[..|p| - 1]
      && (TopBanner in p <==> frags[0].Block?)
      && (frags[0].Block? ==> frags[0].parts != [] && frags[0].parts[0] == TopBanner)
      && (forall k :: 1 <= k < |p| ==> p[k] != TopBanner)
      && (forall k :: 0 <= k < |H1s(p)| ==> H1s(p)[k] == k + 1)
  {
    FinishFrame(st);
    FinishBottom(st);
    FinishTopBanner(st);
    FinishHeadings(st);
  }

  /** The end of `parse` closes a block that ends with the bottom banner and
      then emits the end marker, which appears nowhere else. */
  lemma FinishFrame(st: State)
    requires Wf(st)
    ensures var frags := Finish(st);
      && |frags| >= 2 && frags[|frags| - 1] == EndMarker
      && EndMarker !in frags[..|frags| - 1]
      && frags[|frags| - 2].Block? && frags[|frags| - 2].parts != []
      && frags[|frags| - 2].parts[|frags[|frags| - 2].parts| - 1] == BottomBanner
  {
    FinishParts(st);
    FinishTop(st);
    var frags := Finish(st);
    assert frags[..|frags| - 1] == Closed(st).out;
  }

  /** The bottom banner is the last part of all and the only one. */
  lemma FinishBottom(st: State)
    requires Wf(st)
    ensures var p := Parts(Finish(st));
      p != [] && p[|p| - 1] == BottomBanner && BottomBanner !in p[..|p| - 1]
  {
    FinishParts(st);
    var p := Parts(Finish(st));
    assert p[..|p| - 1] == AllParts(st) + Opening(st);
  }

  /** The top banner is the first part exactly when the first fragment is a
      block, and nowhere else. */
  lemma FinishTopBanner(st: State)
    requires Wf(st)
    ensures var frags := Finish(st); var p := Parts(frags);
      && (TopBanner in p <==> frags[0].Block?)
      && (frags[0].Block? ==> frags[0].parts != [] && frags[0].parts[0] == TopBanner)
      && (forall k :: 1 <= k < |p| ==> p[k] != TopBanner)
  {
    var c := Closed(st);
    FinishParts(st);
    FinishTop(st);
    var frags := Finish(st);
    var p := Parts(frags);
    assert frags[0] == c.out[0];
    assert p == Emitted(c.out, c.block);
    PartsCons(c.out);
    assert frags[0].Block? ==> p[0] == TopBanner;
  }

  /** The `#` headings of the output are numbered 1, 2, ..., in order. */
  lemma FinishHeadings(st: State)
    requires Wf(st)
    ensures H1s(Parts(Finish(st))) == Upto(st.h1Count)
  {
    FinishParts(st);
    var top := Opening(st);
    assert H1s([BottomBanner]) == [] && H1s(top) == [];
    H1sAppend(AllParts(st), top);
    H1sAppend(AllParts(st) + top, [BottomBanner]);
  }

  /** The top banner a block opened now would start with. */
  function Opening(st: State): seq<Part> {
    if st.block.None? && st.out == [] then [TopBanner] else []
  }

  /** The state after the last block is closed with the bottom banner. */
  function Closed(st: State): State {
    CloseBlock(Add(st, [BottomBanner]))
  }

  lemma FinishParts(st: State)
    ensures Finish(st) == Closed(st).out + [EndMarker]
    ensures Closed(st).block.None? && |Closed(st).out| == |st.out| + 1
    ensures Closed(st).out[|st.out|] == Block(OpenBlock(st).block.value + [BottomBanner])
    ensures Parts(Finish(st)) == AllParts(st) + Opening(st) + [BottomBanner]
    ensures Parts(Finish(st)) == Parts(Closed(st).out)
  {
    var a := Add(st, [BottomBanner]);
    OpenParts(st);
    AddParts(st, [BottomBanner]);
    CloseParts(a);
    PartsSnoc(Closed(st).out, EndMarker);
  }

  lemma FinishTop(st: State)
    requires Wf(st)
    ensures TopOk(Closed(st)) && Closed(st).out != [] && Leads(Closed(st)) == Closed(st).out[0].Block?
    ensures EndMarker !in Closed(st).out
  {
    AddParts(st, [BottomBanner]);
    CloseParts(Add(st, [BottomBanner]));
  }

}

=== FILE: parser.dfy ===
/** The `Parser` class of md2wechat.py: a line scanner that threads an
    explicit state (cursor, heading count, the open block, the top-level
    fragments, the fence being read) through one step per dispatched line.

    The scanner produces structure, not text: a fragment is a block (the
    `curr_block_parts` later wrapped in the root template), the rule
    template, or the end marker; a part is one template instance before
    rendering. The module Render turns them into the exact string. */
module Parser {
  import opened Options
  import opened Strings
  import opened Markdown
  import opened Lists
  import opened Tables
  import opened Fences

  /** One entry of `curr_block_parts`. Text payloads are kept unescaped;
      escaping is applied when the part is rendered. */
  datatype Part =
    | TopBanner
    | BottomBanner
    | Blank
    | Image
    | Text(content: string)
    | Heading1(index: nat, title: string)
    | Heading2(title: string)
    | Quote(lines: seq<string>)
    | ListBlock(items: seq<Item>)
    | TableBlock(table: Table)

  /** One entry of `result_parts`. */
  datatype Fragment = Block(parts: seq<Part>) | Rule | EndMarker

  /** The parser's fields and the two locals of `parse`: `block` is
      `curr_block_parts` when `block_opened`, `fence` is `code_fence`. */
  datatype State = State(
    pos: nat,
    h1Count: nat,
    block: Option<seq<Part>>,
    out: seq<Fragment>,
    fence: Option<string>,
    code: seq<string>)

  const Init: State := State(0, 0, None, [], None, [])

  // ---------------------------------------------------------------------
  // The block assembler.

  /** `_open_block_if_needed`: a new block starts with the top banner only
      while nothing has been emitted yet. */
  function OpenBlock(st: State): (r: State)
    ensures r.block.Some? && r.out == st.out && r.pos == st.pos && r.h1Count == st.h1Count
    ensures st.block.Some? ==> r == st
    ensures st.block.None? ==> (TopBanner in r.block.value <==> st.out == [])
    ensures st.block.None? ==> |r.block.value| <= 1
  {
    if st.block.Some? then st
    else st.(block := Some(if st.out == [] then [TopBanner] else []))
  }

  /** Opens the block if needed and appends `ps` to it. */
  function Add(st: State, ps: seq<Part>): (r: State)
    ensures r.block.Some? && r.out == st.out && r.pos == st.pos && r.h1Count == st.h1Count
    ensures r.block.value == OpenBlock(st).block.value + ps
  {
    var o := OpenBlock(st);
    o.(block := Some(o.block.value + ps))
  }

  /** Appends `ps` to the block, opened if needed, and moves the cursor to
      `e`: the common end of every branch that adds content. */
  function AddAt(st: State, ps: seq<Part>, e: nat): (r: State)
    ensures r.pos == e
  {
    Add(st, ps).(pos := e)
  }

  /** `_close_block_if_needed`: the open block becomes a top-level fragment. */
  function CloseBlock(st: State): (r: State)
    ensures r.block.None?
    ensures st.block.None? ==> r == st
    ensures st.block.Some? ==> r.out == st.out + [Block(st.block.value)]
    ensures r.pos == st.pos && r.h1Count == st.h1Count
  {
    match st.block
    case None => st
    case Some(ps) => st.(block := None, out := st.out + [Block(ps)])
  }

  /** `_add_blank_and_restart`. */
  function AddBlank(st: State): State {
    CloseBlock(Add(st, [Blank]))
  }

  /** `_add_hr_and_restart`. */
  function AddRule(st: State): State {
    var c := CloseBlock(st);
    c.(out := c.out + [Rule])
  }

  /** The end of `parse`: the bottom banner closes the last block (opening
      one if needed), then the end marker. */
  function Finish(st: State): seq<Fragment> {
    CloseBlock(Add(st, [BottomBanner])).out + [EndMarker]
  }

  // ---------------------------------------------------------------------
  // The main loop.

  /** A line that does not stop a paragraph. */
  predicate Continues(line: string) {
    !EndsParagraph(line)
  }

  /** `'\n'.join(p.strip() for p in paras)` for the lines `i` to `e`. */
  function ParagraphText(lines: seq<string>, i: nat, e: nat): string
    requires i <= e <= |lines|
  {
    Join(seq(e - i, k requires 0 <= k < e - i => Strip(lines[i + k])), "\n")
  }

  /** The parts an image line adds: one image, however many images the line
      holds, and the remaining text if any. */
  function ImageParts(line: string): (ps: seq<Part>)
    ensures |ps| >= 1 && ps[0] == Image
    ensures |ps| == 2 <==> Strip(RemoveImages(line)) != []
    ensures |ps| <= 2
  {
    var rest := Strip(RemoveImages(line));
    [Image] + (if rest != [] then [Text(rest)] else [])
  }

  /** What the quote and list branches need of a line classified `kind`. */
  predicate KindHolds(line: string, kind: LineKind) {
    && (kind.QuoteLine? ==> QuoteGroup(line).Some?)
    && (kind.ListLine? ==> ItemOf(line).Some?)
  }

  /** One iteration of the `while` loop of `parse`. */
  function Step(lines: seq<string>, st: State): (r: State)
    requires st.pos < |lines|
    ensures st.pos < r.pos <= |lines|
  {
    var line := lines[st.pos];
    match st.fence
    case Some(f) => FenceStep(line, f, st)
    case None =>
      ClassifyGroups(line);
      Dispatch(lines, st, Classify(line))
  }

  /** Inside a fence: a line whose stripped form starts with the fence closes
      it and the code becomes one text part; any other line is collected. */
  function FenceStep(line: string, f: string, st: State): (r: State)
    ensures r.pos == st.pos + 1
  {
    if StartsWith(Strip(line), f) then
      Add(st, [Text(CodeText(st.code))]).(fence := None, code := [], pos := st.pos + 1)
    else st.(code := st.code + [line], pos := st.pos + 1)
  }

  /** The branches of the loop body outside a fence, for a line of the given
      classification (`Step` passes `Classify` of the line; all the branch
      needs to know of it is that a quote line holds a group and a list line
      starts a list). */
  function Dispatch(lines: seq<string>, st: State, kind: LineKind): (r: State)
    requires st.pos < |lines|
    requires KindHolds(lines[st.pos], kind)
    ensures st.pos < r.pos <= |lines|
  {
    var next := st.pos + 1;
    match kind
    case BlankLine => AddBlank(st).(pos := next)
    case RuleLine => AddRule(st).(pos := next)
    case FenceLine(f) => st.(fence := Some(f), code := [], pos := next)
    case ImageLine => AddAt(st, ImageParts(lines[st.pos]), next)
    case H1Line(g) =>
      var n := st.h1Count + 1;
      Add(st, [Heading1(n, Strip(g))]).(h1Count := n, pos := next)
    case H2Line(g) => AddAt(st, [Heading2(Strip(g))], next)
    case QuoteLine(_) => QuoteStep(lines, st)
    case ListLine(_) => ListStep(lines, st)
    case PipeLine => TableStep(lines, st)
    case PlainLine => Paragraph(lines, st)
  }

  /** The quote branch: this line's group and the groups of every following
      quote line, as one quote part. */
  function QuoteStep(lines: seq<string>, st: State): (r: State)
    requires st.pos < |lines| && QuoteGroup(lines[st.pos]).Some?
    ensures st.pos < r.pos <= |lines|
  {
    var sp := Span(lines, st.pos, QuoteGroup);
    AddAt(st, [Quote(sp.0)], sp.1)
  }

  /** The list branch: `_parse_list` from this line on, as one list part. */
  function ListStep(lines: seq<string>, st: State): (r: State)
    requires st.pos < |lines| && ItemOf(lines[st.pos]).Some?
    ensures st.pos < r.pos <= |lines|
  {
    var run := ListRun(lines, st.pos);
    AddAt(st, [ListBlock(run.0)], run.1)
  }

  /** The table candidate: an accepted table is one part; a rejected one
      leaves the line to the plain-text branch. */
  function TableStep(lines: seq<string>, st: State): (r: State)
    requires st.pos < |lines|
    ensures st.pos < r.pos <= |lines|
  {
    match ParseTable(lines, st.pos)
    case Some((t, n)) => AddAt(st, [TableBlock(t)], st.pos + n)
    case None => Paragraph(lines, st)
  }

  /** The plain-text branch: the line and every following line that does not
      stop a paragraph, stripped and joined, as one text part. */
  function Paragraph(lines: seq<string>, st: State): (r: State)
    requires st.pos < |lines|
    ensures st.pos < r.pos <= |lines|
  {
    var e := RunWhile(lines, st.pos + 1, Continues);
    AddAt(st, [Text(ParagraphText(lines, st.pos, e))], e)
  }

  /** The loop from the current position to the end of the input. */
  function Run(lines: seq<string>, st: State): (r: State)
    requires st.pos <= |lines|
    ensures r.pos == |lines|
    decreases |lines| - st.pos
  {
    if st.pos == |lines| then st else Run(lines, Step(lines, st))
  }

  /** `Parser(md_text).parse()` before rendering, on the lines of the text. */
  function Parse(lines: seq<string>): seq<Fragment> {
    Finish(Run(lines, Init))
  }

}

=== FILE: render.dfy ===
/** Rendering the parsed fragments with the eleven templates, and
    `render_wechat_html`. Each text payload is escaped with `html_escape`
    and put into its template with `str.replace`. */
module Render {
  import opened Strings
  import opened Escape
  import opened Lists
  import opened Tables
  import opened Decimal
  import opened Parser
  import opened Invariants
  import opened Output

  /** The template files, as loaded by `load_tpl`. */
  datatype Templates = Templates(
    root: string, text: string, h1: string, h2: string, quote: string,
    img: string, hr: string, blank: string,
    followTop: string, followBottom: string, end: string)

  function EscapeAll(ls: seq<string>): (r: seq<string>)
    ensures |r| == |ls|
    ensures forall k :: 0 <= k < |ls| ==> r[k] == HtmlEscape(ls[k])
  {
    if ls == [] then [] else [HtmlEscape(ls[0])] + EscapeAll(ls[1..])
  }

  /** The string a part adds to `curr_block_parts`. */
  function RenderPart(t: Templates, p: Part): string {
    match p
    case TopBanner => t.followTop
    case BottomBanner => t.followBottom
    case Blank => t.blank
    case Image => t.img
    case Text(c) => ReplaceAll(t.text, "{content}", HtmlEscape(c))
    case Heading1(i, title) =>
      ReplaceAll(ReplaceAll(t.h1, "{index}", IndexLabel(i)), "{title}", HtmlEscape(title))
    case Heading2(title) => ReplaceAll(t.h2, "{title}", HtmlEscape(title))
    case Quote(ls) => ReplaceAll(t.quote, "{content}", Join(EscapeAll(ls), "<br>"))
    case ListBlock(items) => ListHtml(items)
    case TableBlock(table) => TableHtml(table)
  }

  /** The strings the parts add, in order. */
  function PartsHtml(t: Templates, ps: seq<Part>): seq<string> {
    seq(|ps|, k requires 0 <= k < |ps| => RenderPart(t, ps[k]))
  }

  /** `''.join(curr_block_parts)`. */
  function RenderParts(t: Templates, ps: seq<Part>): string {
    Glue(PartsHtml(t, ps))
  }

  /** The string a fragment adds to `result_parts`. */
  function RenderFragment(t: Templates, f: Fragment): string {
    match f
    case Block(ps) => ReplaceAll(t.root, "{content}", RenderParts(t, ps))
    case Rule => t.hr
    case EndMarker => t.end
  }

  /** The strings the fragments add, in order. */
  function FragmentsHtml(t: Templates, fs: seq<Fragment>): seq<string> {
    seq(|fs|, k requires 0 <= k < |fs| => RenderFragment(t, fs[k]))
  }

  /** `''.join(result_parts)`. */
  function RenderFragments(t: Templates, fs: seq<Fragment>): string {
    Glue(FragmentsHtml(t, fs))
  }

  /** `render_wechat_html` on the lines of the Markdown text. */
  function RenderWechatHtml(t: Templates, lines: seq<string>): string {
    RenderFragments(t, Parse(lines))
  }

  lemma RenderPartsCons(t: Templates, ps: seq<Part>)
    requires ps != []
    ensures RenderParts(t, ps) == RenderPart(t, ps[0]) + RenderParts(t, ps[1..])
  {
    var ss := PartsHtml(t, ps);
    GlueCons(ss);
    assert ss[1..] == PartsHtml(t, ps[1..]);
  }

  lemma RenderPartsSnoc(t: Templates, ps: seq<Part>)
    requires ps != []
    ensures RenderParts(t, ps) == RenderParts(t, ps[..|ps| - 1]) + RenderPart(t, ps[|ps| - 1])
  {
    assert PartsHtml(t, ps)[..|ps| - 1] == PartsHtml(t, ps[..|ps| - 1]);
  }

  lemma RenderFragmentsCons(t: Templates, fs: seq<Fragment>)
    requires fs != []
    ensures RenderFragments(t, fs) == RenderFragment(t, fs[0]) + RenderFragments(t, fs[1..])
  {
    var ss := FragmentsHtml(t, fs);
    GlueCons(ss);
    assert ss[1..] == FragmentsHtml(t, fs[1..]);
  }

  lemma RenderFragmentsSnoc(t: Templates, fs: seq<Fragment>)
    requires fs != []
    ensures RenderFragments(t, fs) == RenderFragments(t, fs[..|fs| - 1]) + RenderFragment(t, fs[|fs| - 1])
  {
    assert FragmentsHtml(t, fs)[..|fs| - 1] == FragmentsHtml(t, fs[..|fs| - 1]);
  }

  /** The page always ends with the end template, right after a root block
      whose content ends with the bottom banner. */
  lemma RenderEnds(t: Templates, lines: seq<string>)
    ensures exists before: string, content: string ::
      RenderWechatHtml(t, lines)
        == before + ReplaceAll(t.root, "{content}", content + t.followBottom) + t.end
  {
    ParseShape(lines);
    EndsWithFooter(t, Parse(lines));
  }

  lemma EndsWithFooter(t: Templates, fs: seq<Fragment>)
    requires |fs| >= 2 && fs[|fs| - 1] == EndMarker
    requires fs[|fs| - 2].Block? && fs[|fs| - 2].parts != []
    requires fs[|fs| - 2].parts[|fs[|fs| - 2].parts| - 1] == BottomBanner
    ensures exists before: string, content: string ::
      RenderFragments(t, fs)
        == before + ReplaceAll(t.root, "{content}", content + t.followBottom) + t.end
  {
    var n := |fs|;
    var ps := fs[n - 2].parts;
    var init := fs[..n - 1];
    var before := RenderFragments(t, init[..n - 2]);
    var content := RenderParts(t, ps[..|ps| - 1]);
    RenderPartsSnoc(t, ps);
    RenderFragmentsSnoc(t, fs);
    RenderFragmentsSnoc(t, init);
    assert RenderFragments(t, fs)
        == before + ReplaceAll(t.root, "{content}", content + t.followBottom) + t.end;
  }

  /** When the page starts with a root block, that block's content starts
      with the top banner; otherwise the top banner is nowhere in the
      parsed output. */
  lemma RenderStarts(t: Templates, lines: seq<string>)
    ensures Parse(lines)[0].Block? ==>
      exists content: string, after: string ::
        RenderWechatHtml(t, lines)
          == ReplaceAll(t.root, "{content}", t.followTop + content) + after
    ensures !Parse(lines)[0].Block? ==> TopBanner !in Parts(Parse(lines))
  {
    var fs := Parse(lines);
    ParseShape(lines);
    if fs[0].Block? {
      var ps := fs[0].parts;
      RenderFragmentsCons(t, fs);
      RenderPartsCons(t, ps);
      var content := RenderParts(t, ps[1..]);
      var after := RenderFragments(t, fs[1..]);
      assert RenderWechatHtml(t, lines)
          == ReplaceAll(t.root, "{content}", t.followTop + content) + after;
    }
  }

}

=== FILE: safe_filename.dfy ===
/** `_safe_filename` of utils/fs.py: spaces become `_`, then every character
    outside the class `[\w\-\.一-龥]` becomes `_`.

    Unicode's `\w` is too large to spell out, so it is the parameter `isWord`;
    the facts about Python's class that the proofs need are collected in
    `WordClass`. */
module FileNames {
  import opened Strings

  /** What Python's `\w` is known to contain and to exclude. */
  predicate WordClass(isWord: char -> bool) {
    isWord('_') && !isWord(' ') && !isWord('/') && !isWord('\\')
  }

  /** Membership in `[\w\-\.一-龥]`. */
  predicate SafeChar(c: char, isWord: char -> bool) {
    isWord(c) || c == '-' || c == '.' || ('\U{4E00}' <= c <= '\U{9FA5}')
  }

  function SpaceToUnderscore(c: char): string {
    if c == ' ' then "_" else [c]
  }

  /** `re.sub(class, "_", s)` for a class that matches single characters:
      every match is one character, so the substitution is position-wise. */
  function SubUnsafe(s: string, isWord: char -> bool): (r: string)
    ensures |r| == |s|
    ensures forall i :: 0 <= i < |s| ==> r[i] == if SafeChar(s[i], isWord) then s[i] else '_'
  {
    if s == [] then [] else [if SafeChar(s[0], isWord) then s[0] else '_'] + SubUnsafe(s[1..], isWord)
  }

  /** Each input character maps to exactly one output character: a character
      other than a space that is already safe stays, every other becomes `_`. */
  function SafeFilename(name: string, isWord: char -> bool): (r: string)
    ensures |r| == |name|
    ensures forall i :: 0 <= i < |name| ==>
      r[i] == if name[i] != ' ' && SafeChar(name[i], isWord) then name[i] else '_'
  {
    SpacesReplaced(name);
    SubUnsafe(ReplaceAll(name, " ", "_"), isWord)
  }

  lemma SpacesReplaced(name: string)
    ensures |ReplaceAll(name, " ", "_")| == |name|
    ensures forall i :: 0 <= i < |name| ==>
      ReplaceAll(name, " ", "_")[i] == if name[i] == ' ' then '_' else name[i]
  {
    FlatMapKeep(name);
    forall c
      ensures (Keep(c) == " " && SpaceToUnderscore(c) == "_")
           || (Inert(Keep(c), " ") && SpaceToUnderscore(c) == Keep(c))
    {
    }
    ReplaceTokens(name, Keep, SpaceToUnderscore, " ", "_");
    FlatMapPointwise(name, SpaceToUnderscore);
  }

  /** Every output character is in the safe class; there is no space, `/` or `\`. */
  lemma SafeOutput(name: string, isWord: char -> bool)
    requires WordClass(isWord)
    ensures forall c :: c in SafeFilename(name, isWord) ==> SafeChar(c, isWord)
    ensures ' ' !in SafeFilename(name, isWord)
    ensures '/' !in SafeFilename(name, isWord) && '\\' !in SafeFilename(name, isWord)
  {
    var r := SafeFilename(name, isWord);
    forall c | c in r
      ensures SafeChar(c, isWord) && c != ' ' && c != '/' && c != '\\'
    {
      var i :| 0 <= i < |r| && r[i] == c;
    }
  }

  /** Sanitising a sanitised name changes nothing. */
  lemma Idempotent(name: string, isWord: char -> bool)
    requires WordClass(isWord)
    ensures SafeFilename(SafeFilename(name, isWord), isWord) == SafeFilename(name, isWord)
  {
    var r := SafeFilename(name, isWord);
    var r2 := SafeFilename(r, isWord);
    SafeOutput(name, isWord);
    forall i | 0 <= i < |r|
      ensures r2[i] == r[i]
    {
      assert r[i] in r;
    }
  }

}

=== FILE: steps.dfy ===
/** What one pass of the main loop of `parse` does, branch by branch, and
    what runs of lines do to the state. */
module Steps {
  import opened Options
  import opened Strings
  import opened Markdown
  import opened Lists
  import opened Tables
  import opened Fences
  import opened Parser
  import opened Invariants

  /** The parts of the block `_open_block_if_needed` leaves open: the open
      one, or a new one that starts with the top banner only while nothing
      has been emitted. */
  function Opened(st: State): seq<Part> {
    if st.block.Some? then st.block.value
    else if st.out == [] then [TopBanner] else []
  }

  /** `r` is `st` with `ps` appended to its block, opened if needed; nothing
      is emitted at the top level. */
  predicate Appended(st: State, r: State, ps: seq<Part>) {
    && r.out == st.out
    && r.block == Some(Opened(st) + ps)
    && r.fence == st.fence
  }

  lemma AddAppends(st: State, ps: seq<Part>)
    ensures Appended(st, Add(st, ps), ps)
  {
  }

  /** A blank line ends the block with one blank part: the block (opened if
      needed) is emitted with the blank as its last part, and no block is
      left open. */
  lemma BlankStep(lines: seq<string>, st: State)
    requires st.pos < |lines| && st.fence.None? && IsBlank(lines[st.pos])
    ensures var r := Step(lines, st);
      && r.block.None? && r.pos == st.pos + 1 && r.h1Count == st.h1Count && r.fence.None?
      && r.out == st.out + [Block(Opened(st) + [Blank])]
  {
  }

  /** `k` iterations of the loop, fewer if the input ends first. */
  function StepN(lines: seq<string>, st: State, k: nat): (r: State)
    requires st.pos <= |lines|
    ensures r.pos <= |lines|
    decreases k
  {
    if k == 0 || st.pos == |lines| then st else StepN(lines, Step(lines, st), k - 1)
  }

  /** `k` blank lines after a closed block emit `k` blocks holding only the
      blank part. */
  lemma {:induction false} BlankLines(lines: seq<string>, st: State, k: nat)
    requires st.pos + k <= |lines| && st.fence.None? && st.block.None? && st.out != []
    requires forall j :: st.pos <= j < st.pos + k ==> IsBlank(lines[j])
    ensures var r := StepN(lines, st, k);
      && r.out == st.out + seq(k, _ => Block([Blank]))
      && r.block.None? && r.pos == st.pos + k && r.fence.None?
    decreases k
  {
    if k > 0 {
      var s := Step(lines, st);
      BlankStep(lines, st);
      assert Opened(st) + [Blank] == [Blank];
      BlankLines(lines, s, k - 1);
      assert st.out + seq(k, _ => Block([Blank]))
          == st.out + [Block([Blank])] + seq(k - 1, _ => Block([Blank]));
    }
  }

  /** A rule closes the open block, if any, and is emitted on its own, never
      inside a block. */
  lemma RuleStep(lines: seq<string>, st: State)
    requires st.pos < |lines| && st.fence.None?
    requires !IsBlank(lines[st.pos]) && IsRule(lines[st.pos])
    ensures var r := Step(lines, st);
      && r.block.None? && r.pos == st.pos + 1
      && r.out == st.out + (if st.block.Some? then [Block(st.block.value)] else []) + [Rule]
  {
  }

  /** The k-th `#` heading is given index k and its stripped title. */
  lemma HeadingStep(lines: seq<string>, st: State, g: string)
    requires st.pos < |lines| && st.fence.None?
    requires Classify(lines[st.pos]) == H1Line(g)
    ensures H1Group(lines[st.pos]) == Some(g)
    ensures var r := Step(lines, st);
      && r.h1Count == st.h1Count + 1 && r.pos == st.pos + 1
      && Appended(st, r, [Heading1(st.h1Count + 1, Strip(g))])
  {
    ClassifyGroups(lines[st.pos]);
    StepIs(lines, st);
    DispatchIs(lines, st, H1Line(g));
    AddAppends(st, [Heading1(st.h1Count + 1, Strip(g))]);
  }

  /** A `##` heading adds one second-level heading with its stripped title;
      the `#` counter is left alone. The line is one that every earlier
      branch of the loop passes over and `RE_H2` matches. */
  lemma Heading2Step(lines: seq<string>, st: State, g: string)
    requires st.pos < |lines| && st.fence.None?
    requires !IsBlank(lines[st.pos]) && !IsRule(lines[st.pos]) && FenceOf(lines[st.pos]).None?
    requires !HasImage(lines[st.pos]) && H1Group(lines[st.pos]).None?
    requires H2Group(lines[st.pos]) == Some(g)
    ensures Classify(lines[st.pos]) == H2Line(g)
    ensures var r := Step(lines, st);
      && r.h1Count == st.h1Count && r.pos == st.pos + 1 && r.code == st.code
      && Appended(st, r, [Heading2(Strip(g))])
  {
    StepIs(lines, st);
    DispatchIs(lines, st, H2Line(g));
    AddAppends(st, [Heading2(Strip(g))]);
  }

  /** An image line adds one image part, however many images it holds, and
      its remaining text when there is any. */
  lemma ImageStep(lines: seq<string>, st: State)
    requires st.pos < |lines| && st.fence.None?
    requires Classify(lines[st.pos]) == ImageLine
    ensures var r := Step(lines, st);
      var rest := Strip(RemoveImages(lines[st.pos]));
      && r.pos == st.pos + 1
      && Appended(st, r, [Image] + (if rest != [] then [Text(rest)] else []))
  {
  }

  /** A quote gathers the groups of the run of quote lines that starts at
      this line, this line's group first (`SpanMatches` says the run is
      maximal and each group is its line's). */
  lemma QuoteStepRun(lines: seq<string>, st: State, g: string)
    requires st.pos < |lines| && st.fence.None?
    requires Classify(lines[st.pos]) == QuoteLine(g)
    ensures var r := Step(lines, st);
      var sp := Span(lines, st.pos, QuoteGroup);
      && r.pos == sp.1 && sp.0 != [] && sp.0[0] == g
      && Appended(st, r, [Quote(sp.0)])
  {
    var sp := Span(lines, st.pos, QuoteGroup);
    QuoteStepIs(lines, st, g, sp);
    AddAppends(st, [Quote(sp.0)]);
    assert sp.0[0] == g by {
      SpanMatches(lines, st.pos, QuoteGroup);
      assert lines[st.pos + 0] == lines[st.pos];
    }
  }

  lemma QuoteStepIs(lines: seq<string>, st: State, g: string, sp: (seq<string>, nat))
    requires st.pos < |lines| && st.fence.None?
    requires Classify(lines[st.pos]) == QuoteLine(g) && sp == Span(lines, st.pos, QuoteGroup)
    ensures QuoteGroup(lines[st.pos]) == Some(g)
    ensures Step(lines, st) == AddAt(st, [Quote(sp.0)], sp.1)
  {
    ClassifyGroups(lines[st.pos]);
    StepIs(lines, st);
    assert Dispatch(lines, st, QuoteLine(g)) == QuoteStep(lines, st);
    QuoteIs(lines, st, sp);
  }

  /** A list takes the run of list lines from here on, whatever else those
      lines look like, one item per line (`ListRunItems` says the run is
      maximal and each item is its line's). */
  lemma ListStepRun(lines: seq<string>, st: State, m: ItemLine)
    requires st.pos < |lines| && st.fence.None?
    requires Classify(lines[st.pos]) == ListLine(m)
    ensures var r := Step(lines, st);
      var run := ListRun(lines, st.pos);
      && r.pos == run.1 && |run.0| == run.1 - st.pos
      && Appended(st, r, [ListBlock(run.0)])
  {
    var run := ListRun(lines, st.pos);
    ClassifyGroups(lines[st.pos]);
    StepIs(lines, st);
    assert Dispatch(lines, st, ListLine(m)) == ListStep(lines, st);
    ListIs(lines, st, run);
    AddAppends(st, [ListBlock(run.0)]);
  }

  /** A line with `|` that starts an accepted table adds the table and skips
      its lines; otherwise the line starts a paragraph. */
  lemma TableStepRun(lines: seq<string>, st: State)
    requires st.pos < |lines| && st.fence.None?
    requires Classify(lines[st.pos]) == PipeLine
    ensures var r := Step(lines, st);
      match ParseTable(lines, st.pos)
      case Some((t, n)) => r.pos == st.pos + n && Appended(st, r, [TableBlock(t)])
      case None => r == Paragraph(lines, st)
  {
  }

  /** A paragraph runs up to the next line the main loop would not treat as
      plain text. */
  lemma ParagraphRun(lines: seq<string>, st: State)
    requires st.pos < |lines|
    ensures var r := Paragraph(lines, st);
      && (forall j :: st.pos < j < r.pos ==> Classify(lines[j]) == PlainLine)
      && (r.pos == |lines| || Classify(lines[r.pos]) != PlainLine)
      && Appended(st, r, [Text(ParagraphText(lines, st.pos, r.pos))])
  {
    var e := RunWhile(lines, st.pos + 1, Continues);
    ParagraphAppends(lines, st, e);
    PlainLines(lines, st.pos + 1);
  }

  lemma ParagraphAppends(lines: seq<string>, st: State, e: nat)
    requires st.pos < |lines| && e == RunWhile(lines, st.pos + 1, Continues)
    ensures Paragraph(lines, st).pos == e
    ensures Appended(st, Paragraph(lines, st), [Text(ParagraphText(lines, st.pos, e))])
  {
    ParagraphIs(lines, st, e);
    AddAppends(st, [Text(ParagraphText(lines, st.pos, e))]);
  }

  /** The lines a paragraph takes after its first are plain, and the next
      one is not. */
  lemma PlainLines(lines: seq<string>, i: nat)
    requires i <= |lines|
    ensures var e := RunWhile(lines, i, Continues);
      && (forall j :: i <= j < e ==> Classify(lines[j]) == PlainLine)
      && (e == |lines| || Classify(lines[e]) != PlainLine)
  {
    var e := RunWhile(lines, i, Continues);
    RunWhileStops(lines, i, Continues);
    forall j | i <= j < e
      ensures Classify(lines[j]) == PlainLine
    {
      EndsParagraphIsNotPlain(lines[j]);
    }
    if e < |lines| {
      EndsParagraphIsNotPlain(lines[e]);
    }
  }

  /** An opening fence line starts collecting code under the fence it
      names; nothing is added to the block or the output, and the block
      stays as it was. */
  lemma FenceOpens(lines: seq<string>, st: State, f: string)
    requires st.pos < |lines| && st.fence.None?
    requires Classify(lines[st.pos]) == FenceLine(f)
    ensures FenceOf(lines[st.pos]) == Some(f)
    ensures Step(lines, st) == st.(fence := Some(f), code := [], pos := st.pos + 1)
  {
    ClassifyGroups(lines[st.pos]);
    StepIs(lines, st);
    DispatchIs(lines, st, FenceLine(f));
  }

  /** A fence that is never closed swallows the rest of the input and its
      lines are never emitted: the output is that of the input cut before
      the remaining lines. */
  lemma UnclosedFence(lines: seq<string>, st: State)
    requires st.pos <= |lines| && st.fence.Some?
    requires forall j :: st.pos <= j < |lines| ==> !StartsWith(Strip(lines[j]), st.fence.value)
    ensures Run(lines, st) == st.(code := st.code + lines[st.pos..], pos := |lines|)
    ensures Finish(Run(lines, st)) == Finish(st)
  {
    FenceRun(lines, st);
    FinishIgnoresFence(st, st.code + lines[st.pos..], |lines|);
  }

  lemma {:induction false} FenceRun(lines: seq<string>, st: State)
    requires st.pos <= |lines| && st.fence.Some?
    requires forall j :: st.pos <= j < |lines| ==> !StartsWith(Strip(lines[j]), st.fence.value)
    ensures Run(lines, st) == st.(code := st.code + lines[st.pos..], pos := |lines|)
    decreases |lines| - st.pos
  {
    if st.pos < |lines| {
      var s := st.(code := st.code + [lines[st.pos]], pos := st.pos + 1);
      FenceCollects(lines, st);
      RunStep(lines, st);
      FenceRun(lines, s);
      CollectNext(st.code, lines, st.pos);
    } else {
      assert lines[st.pos..] == [];
    }
  }

  /** Inside a fence, a line that does not close it is collected. */
  lemma FenceCollects(lines: seq<string>, st: State)
    requires st.pos < |lines| && st.fence.Some?
    requires !StartsWith(Strip(lines[st.pos]), st.fence.value)
    ensures Step(lines, st) == st.(code := st.code + [lines[st.pos]], pos := st.pos + 1)
  {
    assert Step(lines, st) == FenceStep(lines[st.pos], st.fence.value, st);
  }

  lemma RunStep(lines: seq<string>, st: State)
    requires st.pos < |lines|
    ensures Run(lines, st) == Run(lines, Step(lines, st))
  {
  }

  lemma CollectNext(code: seq<string>, lines: seq<string>, i: nat)
    requires i < |lines|
    ensures (code + [lines[i]]) + lines[i + 1..] == code + lines[i..]
  {
    assert lines[i..] == [lines[i]] + lines[i + 1..];
  }

  /** The end of `parse` never looks at the fence being read. */
  lemma FinishIgnoresFence(st: State, code: seq<string>, pos: nat)
    ensures Finish(st.(code := code, pos := pos)) == Finish(st)
  {
    var s := st.(code := code, pos := pos);
    assert OpenBlock(s).out == OpenBlock(st).out && OpenBlock(s).block == OpenBlock(st).block;
  }

  /** A closing line turns the collected code into one text part. */
  lemma ClosedFence(lines: seq<string>, st: State)
    requires st.pos < |lines| && st.fence.Some?
    requires StartsWith(Strip(lines[st.pos]), st.fence.value)
    ensures var r := Step(lines, st);
      && r.fence.None? && r.code == [] && r.pos == st.pos + 1
      && r.out == st.out && r.h1Count == st.h1Count
      && r.block == Some(Opened(st) + [Text(CodeText(st.code))])
  {
  }

}

=== FILE: strings.dfy ===
/** String primitives of the converter, each stated the way Python's `str`
    methods behave: `isspace`/`strip`, `startswith`, `''.join`, `sep.join`,
    `split`, `count` and the all-occurrence literal `replace`. */
module Strings {

  /** Python's `str.isspace`, which is also what the `\s` class of `re`
      matches on `str` patterns. */
  predicate IsSpace(c: char) {
    || ('\t' <= c <= '\r')
    || ('\U{1C}' <= c <= ' ')
    || c == '\U{85}' || c == '\U{A0}' || c == '\U{1680}'
    || ('\U{2000}' <= c <= '\U{200A}')
    || c == '\U{2028}' || c == '\U{2029}' || c == '\U{202F}' || c == '\U{205F}'
    || c == '\U{3000}'
  }

  /** The length of the leading whitespace run. */
  function LeadingSpaces(s: string): (n: nat)
    ensures n <= |s|
    ensures forall i :: 0 <= i < n ==> IsSpace(s[i])
    ensures n == |s| || !IsSpace(s[n])
  {
    if |s| > 0 && IsSpace(s[0]) then 1 + LeadingSpaces(s[1..]) else 0
  }

  /** The length of the trailing whitespace run. */
  function TrailingSpaces(s: string): (n: nat)
    ensures n <= |s|
    ensures forall i :: |s| - n <= i < |s| ==> IsSpace(s[i])
    ensures n == |s| || !IsSpace(s[|s| - n - 1])
  {
    if |s| > 0 && IsSpace(s[|s| - 1]) then 1 + TrailingSpaces(s[..|s| - 1]) else 0
  }

  /** `s.lstrip()`. */
  function LStrip(s: string): string {
    s[LeadingSpaces(s)..]
  }

  /** `s.rstrip()`. */
  function RStrip(s: string): string {
    s[..|s| - TrailingSpaces(s)]
  }

  /** `s.strip()`: whitespace removed from both ends; it is empty exactly
      when `s` is all whitespace. */
  function Strip(s: string): (r: string)
    ensures LeadingSpaces(s) == |s| ==> r == []
    ensures LeadingSpaces(s) < |s| ==> r == s[LeadingSpaces(s)..|s| - TrailingSpaces(s)]
    ensures |r| <= |s|
    ensures r == [] || (!IsSpace(r[0]) && !IsSpace(r[|r| - 1]))
    ensures r == [] <==> forall i :: 0 <= i < |s| ==> IsSpace(s[i])
  {
    RStrip(LStrip(s))
  }

  /** `r` is `s` with padding removed and nothing else: a slice of `s` with
      only whitespace before and after it. */
  predicate Trimmed(s: string, r: string) {
    exists a, b ::
      && 0 <= a <= b <= |s| && r == s[a..b]
      && (forall i :: 0 <= i < a ==> IsSpace(s[i]))
      && (forall i :: b <= i < |s| ==> IsSpace(s[i]))
  }

  lemma StripPadding(s: string)
    ensures Trimmed(s, Strip(s))
  {
    var a := LeadingSpaces(s);
    var b := if a == |s| then a else |s| - TrailingSpaces(s);
    assert Strip(s) == s[a..b];
  }

  /** `StripPadding` for every string of a sequence. */
  lemma StripEach(pieces: seq<string>)
    ensures forall k :: 0 <= k < |pieces| ==> Trimmed(pieces[k], Strip(pieces[k]))
  {
    forall k | 0 <= k < |pieces|
      ensures Trimmed(pieces[k], Strip(pieces[k]))
    {
      StripPadding(pieces[k]);
    }
  }

  /** `s.startswith(p)`. */
  predicate StartsWith(s: string, p: string) {
    |p| <= |s| && s[..|p|] == p
  }

  /** `''.join(ss)`, built from the end as a list of pieces grows. */
  function Glue(ss: seq<string>): string {
    if ss == [] then [] else Glue(ss[..|ss| - 1]) + ss[|ss| - 1]
  }

  lemma {:induction false} GlueCons(ss: seq<string>)
    requires ss != []
    ensures Glue(ss) == ss[0] + Glue(ss[1..])
    decreases |ss|
  {
    if |ss| > 1 {
      var init := ss[..|ss| - 1];
      GlueCons(init);
      assert init[1..] == ss[1..][..|ss| - 2];
    }
  }

  /** `sep.join(ss)`. */
  function Join(ss: seq<string>, sep: string): string {
    if |ss| == 0 then []
    else if |ss| == 1 then ss[0]
    else ss[0] + sep + Join(ss[1..], sep)
  }

  /** `s.split(c)` for a one-character separator: the pieces between the
      occurrences of `c`; there is always at least one piece. */
  function Split(s: string, c: char): (r: seq<string>)
    ensures |r| >= 1
    ensures forall k :: 0 <= k < |r| ==> c !in r[k]
    ensures |r| == CountChar(s, c) + 1
  {
    if s == [] then [[]]
    else
      var rest := Split(s[1..], c);
      if s[0] == c then [[]] + rest
      else [[s[0]] + rest[0]] + rest[1..]
  }

  /** Joining the pieces of a split with the separator gives the input back. */
  lemma {:induction false} SplitJoin(s: string, c: char)
    ensures Join(Split(s, c), [c]) == s
  {
    if s != [] {
      var rest := Split(s[1..], c);
      SplitJoin(s[1..], c);
      if s[0] == c {
        assert Split(s, c)[1..] == rest;
      } else {
        var r := Split(s, c);
        if |rest| == 1 {
          assert r == [[s[0]] + rest[0]];
        } else {
          assert r[1..] == rest[1..];
          assert Join(rest, [c]) == rest[0] + [c] + Join(rest[1..], [c]);
        }
      }
    }
  }

  /** `s.count(c)` for a single character. */
  function CountChar(s: string, c: char): nat {
    if s == [] then 0 else (if s[0] == c then 1 else 0) + CountChar(s[1..], c)
  }

  /** The string made by replacing every character of `s` by its token. */
  function FlatMap(s: string, f: char -> string): string {
    if s == [] then [] else f(s[0]) + FlatMap(s[1..], f)
  }

  function Keep(c: char): string { [c] }

  lemma {:induction false} FlatMapKeep(s: string)
    ensures FlatMap(s, Keep) == s
  {
    if s != [] {
      FlatMapKeep(s[1..]);
    }
  }

  /** With one-character tokens, position `i` of the result is the token of `s[i]`. */
  lemma {:induction false} FlatMapPointwise(s: string, f: char -> string)
    requires forall c :: |f(c)| == 1
    ensures |FlatMap(s, f)| == |s|
    ensures forall i :: 0 <= i < |s| ==> FlatMap(s, f)[i] == f(s[i])[0]
  {
    if s != [] {
      FlatMapPointwise(s[1..], f);
      assert |f(s[0])| == 1;
    }
  }

  /** Python's `s.replace(pat, rep)`: a left-to-right scan that rewrites every
      non-overlapping occurrence of `pat`; the empty pattern matches before
      every character and at the end. */
  function ReplaceAll(s: string, pat: string, rep: string): string
    decreases |s|
  {
    if |pat| == 0 then
      (if |s| == 0 then rep else rep + [s[0]] + ReplaceAll(s[1..], pat, rep))
    else if StartsWith(s, pat) then rep + ReplaceAll(s[|pat|..], pat, rep)
    else if |s| == 0 then []
    else [s[0]] + ReplaceAll(s[1..], pat, rep)
  }

  /** A token in which no occurrence of `pat` can start: either the token
      never shows `pat`'s first character, or shows it only at its head and
      already differs from `pat` at its second character. */
  predicate Inert(t: string, pat: string) {
    |pat| > 0 &&
    forall i :: 0 <= i < |t| ==>
      t[i] != pat[0] || (i == 0 && |t| >= 2 && |pat| >= 2 && t[1] != pat[1])
  }

  lemma {:induction false} ReplaceInert(t: string, rest: string, pat: string, rep: string)
    requires Inert(t, pat)
    ensures ReplaceAll(t + rest, pat, rep) == t + ReplaceAll(rest, pat, rep)
    decreases |t|
  {
    if t == [] {
      assert t + rest == rest;
    } else {
      var s := t + rest;
      InertHead(t, rest, pat);
      assert s[1..] == t[1..] + rest;
      ReplaceInert(t[1..], rest, pat, rep);
    }
  }

  /** No occurrence starts at an inert token's head, and the rest of the
      token is inert too. */
  lemma InertHead(t: string, rest: string, pat: string)
    requires Inert(t, pat) && t != []
    ensures !StartsWith(t + rest, pat) && Inert(t[1..], pat)
  {
    var s := t + rest;
    if t[0] == pat[0] {
      assert s[1] == t[1] && t[1] != pat[1];
    }
    forall i | 0 <= i < |t[1..]|
      ensures t[1..][i] != pat[0]
    {
      assert t[1..][i] == t[i + 1];
    }
  }

  lemma ReplaceHit(rest: string, pat: string, rep: string)
    requires |pat| > 0
    ensures ReplaceAll(pat + rest, pat, rep) == rep + ReplaceAll(rest, pat, rep)
  {
    assert StartsWith(pat + rest, pat);
    assert (pat + rest)[|pat|..] == rest;
  }

  /** Replacing a pattern in a tokenised string rewrites the tokens equal to
      the pattern and leaves the inert ones alone. */
  lemma {:induction false} ReplaceTokens(s: string, f: char -> string, g: char -> string,
                                         pat: string, rep: string)
    requires |pat| > 0
    requires forall c :: (f(c) == pat && g(c) == rep) || (Inert(f(c), pat) && g(c) == f(c))
    ensures ReplaceAll(FlatMap(s, f), pat, rep) == FlatMap(s, g)
  {
    if s != [] {
      ReplaceTokens(s[1..], f, g, pat, rep);
      if f(s[0]) == pat && g(s[0]) == rep {
        ReplaceHit(FlatMap(s[1..], f), pat, rep);
      } else {
        ReplaceInert(f(s[0]), FlatMap(s[1..], f), pat, rep);
      }
    }
  }

  /** When `pat`'s first character does not occur, nothing is replaced. */
  lemma ReplaceAbsent(s: string, pat: string, rep: string)
    requires |pat| > 0 && pat[0] !in s
    ensures ReplaceAll(s, pat, rep) == s
  {
    assert Inert(s, pat);
    ReplaceInert(s, [], pat, rep);
    assert s + [] == s;
  }

}

=== FILE: tables.dfy ===
/** `_parse_table` of md2wechat.py: a header row, a separator row that must
    validate, then every following non-blank line holding `|` as a body row.
    Rejection is "nothing consumed", so the caller treats the line as text. */
module Tables {
  import opened Options
  import opened Strings
  import opened Escape
  import opened Markdown

  /** `split_row`: strip, drop one enclosing `|` on each side, split on `|`,
      strip every cell. Each cell is the part of its piece left once the
      whitespace at both ends is cut away, and no more: it starts and ends
      on a non-space character. */
  function SplitRow(s: string): (cells: seq<string>)
    ensures |cells| == |Split(Inner(s), '|')|
    ensures forall k :: 0 <= k < |cells| ==> Trimmed(Split(Inner(s), '|')[k], cells[k])
    ensures forall k :: 0 <= k < |cells| ==>
      cells[k] == [] || (!IsSpace(cells[k][0]) && !IsSpace(cells[k][|cells[k]| - 1]))
  {
    var pieces := Split(Inner(s), '|');
    StripEach(pieces);
    seq(|pieces|, k requires 0 <= k < |pieces| => Strip(pieces[k]))
  }

  /** There is always at least one cell, and no cell holds `|` or has
      whitespace at either end. */
  lemma SplitRowCells(s: string)
    ensures |SplitRow(s)| >= 1
    ensures forall k :: 0 <= k < |SplitRow(s)| ==> '|' !in SplitRow(s)[k]
    ensures forall k :: 0 <= k < |SplitRow(s)| ==>
      var c := SplitRow(s)[k];
      c == [] || (!IsSpace(c[0]) && !IsSpace(c[|c| - 1]))
  {
    var pieces := Split(Inner(s), '|');
    forall k | 0 <= k < |pieces|
      ensures '|' !in SplitRow(s)[k]
    {
      StripSubset(pieces[k]);
    }
  }

  /** The row text between its enclosing pipes. */
  function Inner(s: string): string {
    var s2 := Strip(s);
    var s3 := if StartsWith(s2, "|") then s2[1..] else s2;
    if |s3| > 0 && s3[|s3| - 1] == '|' then s3[..|s3| - 1] else s3
  }

  /** The pieces of a row rejoined with `|` give the row's inner text, one
      piece per separator plus one. */
  lemma SplitRowPieces(s: string)
    ensures Join(Split(Inner(s), '|'), "|") == Inner(s)
    ensures |SplitRow(s)| == CountChar(Inner(s), '|') + 1
  {
    SplitJoin(Inner(s), '|');
  }

  lemma StripSubset(s: string)
    ensures forall c :: c in Strip(s) ==> c in s
  {
    var l := LeadingSpaces(s);
    var t := s[l..];
    assert Strip(s) == t[..|t| - TrailingSpaces(t)];
    forall c | c in Strip(s)
      ensures c in s
    {
      var i :| 0 <= i < |Strip(s)| && Strip(s)[i] == c;
      assert s[l + i] == c;
    }
  }

  function DropColonDash(c: char): string {
    if c == ':' || c == '-' then [] else [c]
  }

  function DropColon(c: char): string {
    if c == ':' then [] else [c]
  }

  /** `c.replace(':', '').replace('-', '')`: what is left of a cell once its
      colons and dashes are removed. */
  function Residue(cell: string): string {
    ReplaceAll(ReplaceAll(cell, ":", ""), "-", "")
  }

  /** One cell of `is_sep`: nothing but `-`/`:` and at least three `-`. */
  predicate IsSeparatorCell(cell: string) {
    Residue(cell) == [] && CountChar(cell, '-') >= 3
  }

  /** `is_sep`. */
  predicate IsSeparator(cells: seq<string>) {
    |cells| > 0 && forall k :: 0 <= k < |cells| ==> IsSeparatorCell(cells[k])
  }

  /** The residue is empty exactly when every character is `-` or `:`. */
  lemma ResidueEmpty(cell: string)
    ensures Residue(cell) == [] <==> forall i :: 0 <= i < |cell| ==> cell[i] == '-' || cell[i] == ':'
  {
    FlatMapKeep(cell);
    forall c
      ensures (Keep(c) == ":" && DropColon(c) == "") || (Inert(Keep(c), ":") && DropColon(c) == Keep(c))
    {
    }
    ReplaceTokens(cell, Keep, DropColon, ":", "");
    forall c
      ensures (DropColon(c) == "-" && DropColonDash(c) == "")
           || (Inert(DropColon(c), "-") && DropColonDash(c) == DropColon(c))
    {
    }
    ReplaceTokens(cell, DropColon, DropColonDash, "-", "");
    DroppedAll(cell);
  }

  lemma {:induction false} DroppedAll(cell: string)
    ensures FlatMap(cell, DropColonDash) == [] <==> forall i :: 0 <= i < |cell| ==> cell[i] == '-' || cell[i] == ':'
  {
    if cell != [] {
      DroppedAll(cell[1..]);
      assert forall i :: 1 <= i < |cell| ==> cell[i] == cell[1..][i - 1];
    }
  }

  datatype Table = Table(header: seq<string>, rows: seq<seq<string>>)

  /** A body row: `'|' in line and line.strip() != ''`. */
  predicate IsBodyRow(line: string) {
    '|' in line && !IsBlank(line)
  }

  /** `_parse_table(start)`: `None` is the source's `("", 0)`; otherwise the
      table and the number of lines it consumed. */
  function ParseTable(lines: seq<string>, start: nat): (r: Option<(Table, nat)>)
    ensures r.Some? ==> 2 <= r.value.1 && start + r.value.1 <= |lines|
  {
    if start >= |lines| || '|' !in lines[start] then None
    else if start + 1 >= |lines| then None
    else if !IsSeparator(SplitRow(lines[start + 1])) then None
    else Some(TableFrom(lines, start))
  }

  /** `t` is the table made of lines `start` to `start + n`: the header row,
      the separator, then the maximal run of body rows, split into cells. */
  ghost predicate TableAt(lines: seq<string>, start: nat, t: Table, n: nat) {
    && n >= 2 && start + n <= |lines|
    && t.header == SplitRow(lines[start])
    && |t.rows| == n - 2
    && (forall k :: 0 <= k < |t.rows| ==> t.rows[k] == SplitRow(lines[start + 2 + k]))
    && (forall k :: start + 2 <= k < start + n ==> IsBodyRow(lines[k]))
    && (start + n == |lines| || !IsBodyRow(lines[start + n]))
  }

  function TableFrom(lines: seq<string>, start: nat): (r: (Table, nat))
    requires start + 1 < |lines|
    ensures 2 <= r.1 && start + r.1 <= |lines|
  {
    var e := RunWhile(lines, start + 2, IsBodyRow);
    (Table(SplitRow(lines[start]), BodyRowCells(lines, start + 2, e)), e - start)
  }

  /** A table is accepted exactly when a separator row follows a line with
      `|`; it is then the header, the separator and the maximal run of body
      rows after them. */
  lemma ParseTableSpec(lines: seq<string>, start: nat)
    ensures var r := ParseTable(lines, start);
      && (r.None? <==>
           (start + 1 >= |lines| || '|' !in lines[start] || !IsSeparator(SplitRow(lines[start + 1]))))
      && (r.Some? ==> TableAt(lines, start, r.value.0, r.value.1))
  {
    if ParseTable(lines, start).Some? {
      var e := RunWhile(lines, start + 2, IsBodyRow);
      RunWhileStops(lines, start + 2, IsBodyRow);
      TableFromAt(lines, start, e, Table(SplitRow(lines[start]), BodyRowCells(lines, start + 2, e)));
    }
  }

  /** Given the end `e` of the maximal run of body rows, the table built from
      the header and the rows up to `e` is the declarative table at `start`. */
  lemma TableFromAt(lines: seq<string>, start: nat, e: nat, t: Table)
    requires start + 2 <= e <= |lines|
    requires forall k :: start + 2 <= k < e ==> IsBodyRow(lines[k])
    requires e == |lines| || !IsBodyRow(lines[e])
    requires t == Table(SplitRow(lines[start]), BodyRowCells(lines, start + 2, e))
    ensures TableAt(lines, start, t, e - start)
  {
    assert forall k :: 0 <= k < |t.rows| ==> t.rows[k] == SplitRow(lines[start + 2 + k]);
  }

  /** The cells of lines `i` to `e`, one row per line. */
  function BodyRowCells(lines: seq<string>, i: nat, e: nat): (rows: seq<seq<string>>)
    requires i <= e <= |lines|
    ensures |rows| == e - i
    ensures forall k :: 0 <= k < |rows| ==> rows[k] == SplitRow(lines[i + k])
  {
    seq(e - i, k requires 0 <= k < e - i => SplitRow(lines[i + k]))
  }

  // ---------------------------------------------------------------------
  // Markup: the list of lines `_parse_table` joins with newlines.

  const TdPrefix: string := "<section data-mpa-md-key=\"text\" style=\"font-size: 15px;color: rgb(51, 51, 51);letter-spacing: 1px;\" data-mpa-md-template=\"30005\">"
  const RowOpen: string := "    <tr>"
  const RowClose: string := "    </tr>"

  function HeaderCell(cell: string): seq<string> {
    ["      <td>", "        <section>",
     "          <span leaf=\"\">" + HtmlEscape(cell) + "</span>",
     "        </section>", "      </td>"]
  }

  function BodyCell(cell: string): seq<string> {
    ["      <td>", "        <section>", "          " + TdPrefix,
     "            <span leaf=\"\">" + HtmlEscape(cell) + "</span>",
     "          </section>", "        </section>", "      </td>"]
  }

  function HeaderCells(cells: seq<string>): seq<string> {
    if cells == [] then [] else HeaderCell(cells[0]) + HeaderCells(cells[1..])
  }

  function BodyCells(cells: seq<string>): seq<string> {
    if cells == [] then [] else BodyCell(cells[0]) + BodyCells(cells[1..])
  }

  function BodyRows(rows: seq<seq<string>>): seq<string> {
    if rows == [] then []
    else [RowOpen] + BodyCells(rows[0]) + [RowClose] + BodyRows(rows[1..])
  }

  const TableHead: seq<string> := ["<table>", "  <tbody>", RowOpen]
  const TableTail: seq<string> := ["  </tbody>", "</table>"]

  function TableLines(t: Table): seq<string> {
    TableHead + HeaderCells(t.header) + [RowClose] + BodyRows(t.rows) + TableTail
  }

  /** The fragment an accepted table becomes. */
  function TableHtml(t: Table): string {
    Join(TableLines(t), "\n")
  }

  /** How many entries of `parts` are `x`. */
  function Occurrences(parts: seq<string>, x: string): nat {
    if parts == [] then 0 else (if parts[0] == x then 1 else 0) + Occurrences(parts[1..], x)
  }

  lemma {:induction false} OccurrencesAppend(a: seq<string>, b: seq<string>, x: string)
    ensures Occurrences(a + b, x) == Occurrences(a, x) + Occurrences(b, x)
  {
    if a == [] {
      assert a + b == b;
    } else {
      assert (a + b)[1..] == a[1..] + b;
      OccurrencesAppend(a[1..], b, x);
    }
  }

  lemma {:induction false} NoOccurrence(parts: seq<string>, x: string)
    requires forall k :: 0 <= k < |parts| ==> parts[k] != x
    ensures Occurrences(parts, x) == 0
  {
    if parts != [] {
      NoOccurrence(parts[1..], x);
    }
  }

  lemma {:induction false} HeaderCellsNoRow(cells: seq<string>)
    ensures Occurrences(HeaderCells(cells), RowOpen) == 0
  {
    if cells != [] {
      var c := HeaderCell(cells[0]);
      assert |c[2]| > |RowOpen|;
      NoOccurrence(c, RowOpen);
      OccurrencesAppend(c, HeaderCells(cells[1..]), RowOpen);
      HeaderCellsNoRow(cells[1..]);
    }
  }

  lemma {:induction false} BodyCellsNoRow(cells: seq<string>)
    ensures Occurrences(BodyCells(cells), RowOpen) == 0
  {
    if cells != [] {
      var c := BodyCell(cells[0]);
      assert |c[2]| > |RowOpen| && |c[3]| > |RowOpen|;
      NoOccurrence(c, RowOpen);
      OccurrencesAppend(c, BodyCells(cells[1..]), RowOpen);
      BodyCellsNoRow(cells[1..]);
    }
  }

  lemma {:induction false} BodyRowsCount(rows: seq<seq<string>>)
    ensures Occurrences(BodyRows(rows), RowOpen) == |rows|
  {
    if rows != [] {
      BodyCellsNoRow(rows[0]);
      OccurrencesAppend([RowOpen] + BodyCells(rows[0]) + [RowClose], BodyRows(rows[1..]), RowOpen);
      OccurrencesAppend([RowOpen] + BodyCells(rows[0]), [RowClose], RowOpen);
      OccurrencesAppend([RowOpen], BodyCells(rows[0]), RowOpen);
      BodyRowsCount(rows[1..]);
    }
  }

  /** One `<tr>` for the header and one per body row, whatever the cell
      counts: rows are not checked against the header's width. */
  lemma TableRowCount(t: Table)
    ensures Occurrences(TableLines(t), RowOpen) == 1 + |t.rows|
  {
    var hc := HeaderCells(t.header);
    var br := BodyRows(t.rows);
    assert TableLines(t) == TableHead + hc + [RowClose] + br + TableTail;
    HeaderCellsNoRow(t.header);
    BodyRowsCount(t.rows);
    FrameRows();
    OccurrencesAppend(TableHead + hc + [RowClose] + br, TableTail, RowOpen);
    OccurrencesAppend(TableHead + hc + [RowClose], br, RowOpen);
    OccurrencesAppend(TableHead + hc, [RowClose], RowOpen);
    OccurrencesAppend(TableHead, hc, RowOpen);
  }

  /** The fixed lines around the rows hold one `<tr>`, the header's. */
  lemma FrameRows()
    ensures Occurrences(TableHead, RowOpen) == 1
    ensures Occurrences([RowClose], RowOpen) == 0
    ensures Occurrences(TableTail, RowOpen) == 0
  {
    assert "<table>" != RowOpen && "  <tbody>" != RowOpen;
    NoOccurrence(TableHead[..2], RowOpen);
    assert TableHead == TableHead[..2] + [RowOpen];
    OccurrencesAppend(TableHead[..2], [RowOpen], RowOpen);
    assert RowClose[5] != RowOpen[5];
    NoOccurrence([RowClose], RowOpen);
    assert TableTail[1][1] != RowOpen[1];
    NoOccurrence(TableTail, RowOpen);
  }

}
